=== FILE: README.md ===
# sql-as-promised: a Dafny model of `Row` and `Database`

This project models the core of the `sql-as-promised` adaptor. The adaptor
wraps an in-memory SQL engine (sql.js) in callback-style calls. The model covers:

- `Row` (lib/row.js). A Row is a frozen record whose fields can be read by
  position (`row[0]`) and by column name (`row.spam`). It has non-enumerable
  `length` and `_keys` properties. It borrows ten `Array.prototype` methods.
- `Database` (lib/db.js). This is a two-state (Closed/Open) connection holder
  with `open`, `execute`, `flush` and `close`, and the private `_runQuery` that
  builds the frozen list of rows.

The model is in six modules:

- `Wrappers`: `Option` and `Result`.
- `DecimalKeys`: the property key an array index `i` becomes (its decimal
  spelling). Proved: it parses back to `i`, distinct indices give distinct keys,
  and no key starting with a non-digit spells an index.
- `JsObjects`: JavaScript objects as maps from key to property descriptor.
  Models strict-mode assignment, `delete`, `Object.defineProperty` for a data
  value, and `Object.freeze`, each with the TypeError strict mode throws.
- `ArrayMethods`: `every`, `some`, `filter`, `forEach`, `map`, `reduce`,
  `reduceRight`, `slice`, `indexOf` and `lastIndexOf` on a dense array. This
  includes relative indices, the `fromIndex` argument, and the TypeError of a
  reduction over nothing.
- `Rows` and `RowProperties`: the Row constructor and what a Row promises its
  readers.
  - The constructor is modelled step by step. The loop runs
    `this[i] = this[columns[i]] = values[i]`, so the column write comes first
    and then the index write. Then `length` and `_keys` are defined, and the
    object is frozen.
  - Proved: each key reads the value of its last write. A later column named
    "0" overwrites `row[0]`. Duplicate names keep the last value. The
    enumerable keys are exactly the index keys and the column names. Every
    assignment, and every `delete` of an owned key, throws the error the test
    suite expects; deleting a key the row does not own changes nothing. When no
    column spells an index or shadows a borrowed method, every borrowed method
    gives on the row what it gives on `values`.
- `Databases` and `Sessions`: the four operations and `_runQuery` as pure
  transitions over `Database(filePath, connection)`.
  - The SQL engine and the file system are inputs, not models. The model takes
    as arguments the bytes a read yields or its I/O error, the cursor a
    prepared statement walks or its fault, and the image `export()` produces.
  - Writes to the file system come back as a `WriteRequest`.
  - Each reply records what happened: what the callback received, what was
    thrown to the caller, or what escaped an asynchronous callback uncaught.

In three places the code does not do what its own text says, or what it
evidently means:

- The doc comment of `open` (lib/db.js:42-47) says it reads an existing file
  and loads it into memory. As written, a file-backed `open` never stores the
  connection.
- The doc comment of `flush` (lib/db.js:95-101) makes the path optional,
  defaulting to the opening path, and lib/db.js:116 has an error for a missing
  location. As written, omitting the path loses the callback, and a missing
  location throws "callback is not a function" to the caller instead of
  passing that error to the callback.
- `_runQuery` calls `free()` on the prepared statement only when stepping
  completes (lib/db.js:163). Its doc comment (lib/db.js:140-149) only says it
  throws on failure. Releasing the statement on the error path as well is this
  model's own judgement of the intended behaviour.

Each of these is listed under "## Findings" with a corrected member, and the
save-and-reopen round trip is proved on the corrected members.

## Model

| member | source | states |
|---|---|---|
| DecimalKeys.IndexKey | lib/row.js:16 | the key of index `i` is a non-empty digit string with a leading zero only for index 0 |
| DecimalKeys.ParseIndexKey | lib/row.js:16 | reading the key of index `i` back as a decimal gives `i` |
| DecimalKeys.IndexKeyInjective | lib/row.js:16 | two indices share a key exactly when they are equal |
| DecimalKeys.NotAnIndexKey | lib/row.js:16 | a name starting with a non-digit is never the key of an index |
| JsObjects.Put | lib/row.js:16 | strict-mode assignment fails exactly on a read-only own key ("read only") or a new key of a non-extensible object ("add property"); otherwise an own key keeps its attributes and takes the value, a new key is created writable, enumerable and configurable, and every other key is unchanged |
| JsObjects.Delete | test/row.js:86-89 | delete fails exactly on a non-configurable own key; otherwise it removes only that key |
| JsObjects.DefineValue | lib/row.js:20-29 | defining a data value succeeds on a configurable own key or on a new key of an extensible object; it sets value and enumerability, makes a new key read-only, and changes nothing else |
| JsObjects.Freeze | lib/row.js:30 | freezing keeps every key, value and enumerability, and leaves the object frozen |
| JsObjects.MessagePrefixes | test/row.js:81-127 | the messages for assigning a read-only key, adding to a non-extensible object and deleting a non-configurable key start with "Cannot assign to read only property", "Can't add property" and "Cannot delete property" |
| JsObjects.FrozenRejectsChanges | lib/row.js:30 | on a frozen object, assignment always fails (read only or not extensible), deleting an own key fails, deleting a missing key changes nothing, and redefinition succeeds only when it changes nothing |
| ArrayMethods.EveryFrom | lib/row.js:35 | `every` is true exactly when the predicate holds of every element with its index |
| ArrayMethods.SomeFrom | lib/row.js:53 | `some` is true exactly when the predicate holds of some element with its index |
| ArrayMethods.SomeIsNotEveryNot | lib/row.js:53 | `some(p)` is the negation of `every(not p)` |
| ArrayMethods.FilterFrom | lib/row.js:37 | `filter` keeps at most the input's elements; every kept element passed; every passing element is kept |
| ArrayMethods.FilterFromSnoc | lib/row.js:37 | filtering an array with one more element keeps what was kept before, in order, followed by the new element exactly when it passes |
| ArrayMethods.FilterIsOrderedSelection | lib/row.js:37 | `filter` of `[]` is `[]`, and `filter(s + [x])` is `filter(s)` followed by `x` exactly when `x` passes at its index: the ordered selection, duplicates kept |
| ArrayMethods.FilterAllPass | lib/row.js:37 | when every element passes, `filter` returns a copy of the array |
| ArrayMethods.MapFrom | lib/row.js:45 | `map` has the input's length, and element `i` is `f(s[i], i)` |
| ArrayMethods.ForEachCalls | lib/row.js:39 | `forEach` calls its callback once per element, in order, with the element and its index |
| ArrayMethods.Reduce | lib/row.js:47 | `reduce` without an initial value throws exactly on an empty array and returns the only element of a one-element array |
| ArrayMethods.ReduceFromSnoc | lib/row.js:47 | folding an array with one more element applies the callback once more, to the previous result and the last element at its index |
| ArrayMethods.ReduceWithIsLeftFold | lib/row.js:47 | `reduce` with an initial value is the left fold: the initial value on `[]`, one more step per appended element |
| ArrayMethods.ReduceSeededByFirst | lib/row.js:47 | on a non-empty array, `reduce` without an initial value applies the callback once more per appended element, to the previous result, the element and its index |
| ArrayMethods.ReduceRight | lib/row.js:49 | `reduceRight` without an initial value throws exactly on an empty array and returns the only element of a one-element array |
| ArrayMethods.ReduceRightFromIsReduceOfReverse | lib/row.js:49 | folding from the right is folding the reversed array from the left, with indices mirrored |
| ArrayMethods.ReduceRightFromIgnoresSuffix | lib/row.js:49 | folding from the right below position `k` reads nothing at or past `k` |
| ArrayMethods.ReduceRightSeededByLast | lib/row.js:49 | `reduceRight` without an initial value is `reduceRight` over the other elements with the last element as the initial value |
| ArrayMethods.ReduceRightIsReduceOfReverse | lib/row.js:49 | `reduceRight(f, init)` equals `reduce` over the reversed array with mirrored indices |
| ArrayMethods.RelativeIndex | lib/row.js:51 | a relative index within the array is kept, a negative one counts back from the end, one past the end clamps to `len`, one before the start clamps to 0 |
| ArrayMethods.Slice | lib/row.js:51 | `slice(start, end)` is the run between the two relative indices, and empty when they cross |
| ArrayMethods.SliceCopies | lib/row.js:51 | `slice(0)` copies the array |
| ArrayMethods.SliceNegativeStart | lib/row.js:51 | `slice(-k)` is the last `k` elements |
| ArrayMethods.SliceAtCut | lib/row.js:51 | `slice(0, m)` followed by `slice(m)` rebuilds the array |
| ArrayMethods.IndexOfStart | lib/row.js:41 | `indexOf` starts at 0 by default, at a `fromIndex` within the array, or `-fromIndex` positions from the end; past the end it examines nothing (`len`), before the start it starts at 0 |
| ArrayMethods.IndexOfFrom | lib/row.js:41 | `indexOf` returns the first position at or after the start holding `x`, or -1 when there is none |
| ArrayMethods.LastIndexOfStart | lib/row.js:43 | `lastIndexOf` starts at the last position by default, at a `fromIndex` within the array, or `-fromIndex` positions from the end; past the end it starts at the last position, before the start it examines nothing (-1) |
| ArrayMethods.LastIndexOfFrom | lib/row.js:43 | `lastIndexOf` returns the last position at or before the start holding `x`, or -1 when there is none |
| ArrayMethods.SearchesFromBothEnds | lib/row.js:41-43 | both searches give -1 exactly when `x` is absent; otherwise the first position is at most the last, and they agree only when `x` occurs once |
| ArrayMethods.SingleOccurrenceFoundByBoth | lib/row.js:41-43 | a value occurring exactly once is found at that position by both `indexOf` and `lastIndexOf` |
| Rows.LastWriter | lib/row.js:15-17 | finds the last loop iteration that wrote a key: that iteration wrote it, no later one did, and none did when there is no result |
| Rows.FillIsLastWrite | lib/row.js:15-17 | after the loop each key holds the value of its last write, and unwritten keys are absent |
| Rows.FillKeys | lib/row.js:15-17 | the loop writes exactly the index keys and the column keys of its iterations |
| Rows.PutIntoDataObject | lib/row.js:16 | assigning a field of a fresh data object succeeds and stores the value |
| Rows.WriteFieldsFills | lib/row.js:15-17 | on a fresh object no assignment of the loop throws, and the loop leaves the fields of its writes |
| Rows.WriteFields | lib/row.js:15-17 | the strict-mode loop keeps every key it found and the object's extensibility, leaves every index key and column key of its iterations present, and on a frozen object throws at its first write ("read only" or "add property") |
| Rows.FrozenColumns | lib/row.js:19 | `_keys` is the caller's column array itself exactly when that array is frozen; otherwise it is a frozen copy with the same names and a different identity |
| Rows.FinishDataObject | lib/row.js:20-30 | defining `length` and `_keys` and freezing cannot fail; the result is frozen, keeps every other field, and hides `length` and `_keys` from enumeration even when a column had those names |
| Rows.Finish | lib/row.js:19-30 | defining `length` and `_keys` and freezing succeeds on an extensible object whose properties are all configurable, and then yields a frozen object with exactly the loop's keys plus `length` and `_keys`, holding the value count and the frozen column array, both non-enumerable |
| Rows.NewRow | lib/row.js:13-32 | construction succeeds with a frozen object whose `length` is the number of values, whose `_keys` is the frozen column array, and whose other keys read the last value written to them |
| Rows.ReadField | lib/row.js:15-17 | a key read after construction gives the value of the last iteration that wrote it |
| Rows.NewRowKeys | lib/row.js:13-32 | a row owns exactly its index keys, its column keys, `length` and `_keys`, and enumerates all but the last two |
| RowProperties.HiddenKeysAreNotIndexKeys | lib/row.js:20-29 | `length` and `_keys` never clash with an index key |
| RowProperties.IndexReadsOwnValue | lib/row.js:16 | `row[i]` is `values[i]` unless a later column is named after index `i` |
| RowProperties.IndexOverwrittenByColumn | lib/row.js:16 | a later column named after index `i` overwrites `row[i]` with its own value, the last such column winning |
| RowProperties.ColumnNamedZeroOverwritesFirstField | lib/row.js:16 | with columns `["x", "0"]`, `row[0]` holds the second value and `row.x` the first |
| RowProperties.NamedReadsLastDuplicate | lib/row.js:16 | `row[name]` is the value of the last column with that name, unless a later index spells that name |
| RowProperties.DuplicateColumnLastWins | lib/row.js:16 | with columns `["a", "a"]`, `row.a` holds the second value |
| RowProperties.ExtraValuesLandOnUndefined | lib/row.js:16 | with fewer column names than values, `columns[i]` past the end is the key "undefined", and `row.undefined` reads the last value |
| RowProperties.FieldsReachableBothWays | test/row.js:28-46 | with distinct, ordinary column names, every value is reachable both by position and by its column name |
| RowProperties.LengthAndKeys | lib/row.js:19-29 | `length` is a read-only, non-enumerable, non-configurable count of the values; `_keys` holds the column names, frozen, and is the caller's array exactly when that array was frozen, a different array otherwise |
| RowProperties.EnumerableKeysExactly | test/row.js:55-63 | when no column is named `length` or `_keys`, the row's enumerable keys are exactly its index keys and column names |
| RowProperties.RowRejectsMutation | lib/row.js:30 | after construction every assignment throws ("read only" on an owned key, "add property" on a new one); deleting an owned key throws; deleting any other key changes nothing |
| RowProperties.SampleIndexKeys | test/row.js:28-36 | the sample row's index keys are "0" to "3", and none of its columns spells one |
| RowProperties.SampleRowReads | test/row.js:28-53 | the sample row reads "one" at 0 and at `spam`, "four" at 3 and at `bacon`, and has length 4 |
| RowProperties.SampleColumnKeys | test/row.js:38-46 | the sample row's column keys are its four names |
| RowProperties.SampleRowKeys | test/row.js:55-63 | the sample row enumerates exactly "0" to "3" and its four column names |
| RowProperties.SampleRowRejectsChanges | test/row.js:77-128 | overwriting an index, a column or `length`, and deleting an index or a column, of the sample row each throw the error the suite expects |
| RowProperties.SampleRowRejectsAdditions | test/row.js:92-121 | adding `4`, `-1`, `test` or `toString` to the sample row throws "add property" |
| RowProperties.SampleRowMessages | test/row.js:81-120 | overwriting a column, deleting an index and adding index 4 on the sample row each fail with a message starting with the words the suite matches |
| RowProperties.NewRowIsRow | lib/row.js:15-23 | every position below `length` of a constructed row holds a field, which is all the borrowed methods read |
| RowProperties.PositionalIsValues | lib/row.js:15-17 | when no column spells an index, the row read by position is exactly `values` |
| RowProperties.BorrowedNameIsNotAnIndexKey | lib/row.js:34-53 | no borrowed method name is an index key or a hidden key |
| RowProperties.BorrowedNamesAreFree | lib/row.js:34-53 | when no column is named after a borrowed method, the row has no own property of that name, so the method is reached |
| RowProperties.Borrow | lib/row.js:34-53 | calling a borrowed method throws "not a function" exactly when the row owns a property of that name, and otherwise gives the method's result |
| RowProperties.RowEvery | lib/row.js:35 | `row.every(p)` throws when shadowed, and otherwise is true exactly when `p` holds of every positional field with its index |
| RowProperties.RowSome | lib/row.js:53 | `row.some(p)` throws when shadowed, and otherwise is true exactly when `p` holds of some positional field with its index |
| RowProperties.RowFilter | lib/row.js:37 | `row.filter(p)` throws when shadowed, and otherwise keeps every passing positional field and nothing that is not a field |
| RowProperties.RowForEach | lib/row.js:39 | `row.forEach(f)` throws when shadowed, and otherwise calls `f` once per positional field, in order, with the field and its index |
| RowProperties.RowMap | lib/row.js:45 | `row.map(f)` throws when shadowed, and otherwise has one result per positional field, `f` of the field and its index |
| RowProperties.RowReduceWith | lib/row.js:47 | `row.reduce(f, init)` throws when shadowed, and otherwise gives `init` on an empty row |
| RowProperties.RowReduce | lib/row.js:47 | `row.reduce(f)` throws "not a function" when shadowed, and otherwise throws the empty-reduce TypeError exactly on an empty row |
| RowProperties.RowReduceRightWith | lib/row.js:49 | `row.reduceRight(f, init)` throws when shadowed, and otherwise gives `init` on an empty row |
| RowProperties.RowReduceRight | lib/row.js:49 | `row.reduceRight(f)` throws "not a function" when shadowed, and otherwise throws the empty-reduce TypeError exactly on an empty row |
| RowProperties.RowSlice | lib/row.js:51 | `row.slice(...)` throws when shadowed, and otherwise gives at most the row's length of its positional fields |
| RowProperties.RowIndexOf | lib/row.js:41 | `row.indexOf(x)` throws when shadowed, and otherwise gives -1 or a position holding `x`, and -1 from the start exactly when `x` is not a field |
| RowProperties.RowLastIndexOf | lib/row.js:43 | `row.lastIndexOf(x)` throws when shadowed, and otherwise gives -1 or a position holding `x`, and -1 from the end exactly when `x` is not a field |
| RowProperties.ColumnShadowsMethod | lib/row.js:45 | a column named `map` shadows the borrowed method: `row.map(f)` throws "not a function" |
| RowProperties.IterationMethodsSeeValues | lib/row.js:35-45 | `every`, `some`, `filter`, `forEach` and `map` on a row give what they give on `values` |
| RowProperties.FoldMethodsSeeValues | lib/row.js:47-49 | `reduce` and `reduceRight`, with and without an initial value, on a row give what they give on `values` |
| RowProperties.SearchMethodsSeeValues | lib/row.js:41-51 | `slice`, `indexOf` and `lastIndexOf` on a row give what they give on `values` |
| Databases.NewDatabase | lib/db.js:15-18 | a new database is Closed and keeps the path it was given |
| Databases.Open | lib/db.js:49-73 | as written: an open database reports "already opened" and is unchanged; an in-memory one opens empty; a failed read reports the I/O error; a file-backed one never becomes Open |
| Databases.OpenFixed | lib/db.js:63-70 | corrected: the callback gets no error exactly when there is no path or the read succeeds, and the connection is then seeded with the bytes read (empty in memory); on any error the database is unchanged |
| Databases.Close | lib/db.js:129-138 | close always leaves the database Closed, keeps its path, and reports success exactly when it was Open, else "No database opened." |
| Databases.QueryRows | lib/db.js:157-161 | one row per step, each built from that step's values and the column array fetched on the first step |
| Databases.QueryRowsShape | lib/db.js:157-164 | every row of a query is frozen, has the step's value count as `length`, and has as `_keys` the first step's column array frozen (that array itself if it was frozen, else a frozen copy); when no column spells an index, its positional fields are exactly the step's values |
| Databases.QueryRowsPrefix | lib/db.js:160 | each loop iteration appends exactly the next step's row |
| Databases.RunQuery | lib/db.js:150-165 | as written: a fault in `prepare` or in stepping is passed on with no rows and no `free()`; a clean run returns the frozen list of the query's rows and frees the statement |
| Databases.RunQueryFixed | lib/db.js:163 | corrected: the statement is freed exactly when it was prepared, with the same result as `_runQuery` |
| Databases.Execute | lib/db.js:84-93 | a Closed database reports "No database opened." and prepares nothing; an Open one passes on the engine's fault or the frozen rows, freeing only on success |
| Databases.ExecuteFixed | lib/db.js:84-93 | `execute` over the corrected `_runQuery`: same replies, and every prepared statement is freed |
| Databases.PathArg | lib/db.js:110-112 | the stored path, as an argument, is truthy exactly when it is a non-empty string |
| Databases.ToBooleanTable | lib/db.js:110-115 | the `!filePath` tests of lib/db.js:56, 110 and 115: `undefined`, `null` and `""` are falsy, a non-empty string and a function truthy; a stored path counts exactly when it is a non-empty string |
| Databases.Invoke | lib/db.js:116 | calling the callback reaches it with the error exactly when it is a function; anything else throws "callback is not a function" to the caller |
| Databases.Flush | lib/db.js:103-121 | as written: Closed reports "No database opened." with no write; a truthy path writes there with the callback; a falsy path writes to the stored path but passes the falsy value as the callback; with no location at all the call throws "callback is not a function" |
| Databases.FlushFixed | lib/db.js:103-121 | corrected: a function first argument is the callback; a missing path falls back to the stored path; no location reports "No location to save the database given." and writes nothing; every write goes to a non-empty string path |
| Sessions.InMemoryLifecycle | lib/db.js:49-138 | an in-memory database opens, refuses a second open unchanged, closes, refuses a second close, and opens again |
| Sessions.ClosedDatabaseRefuses | lib/db.js:103-138 | on a Closed database `close` and `flush(path, callback)` report "No database opened." and request no write; as written, the documented `flush(callback)` throws "callback is not a function" there instead, while the corrected `flush` reports "No database opened." to the callback |
| Sessions.FileOpenNeverConnects | lib/db.js:63-70 | as written, a successful read of a file-backed database raises an uncaught TypeError and leaves it Closed; if the process survives, later opens repeat this and `close` and `flush` find no database |
| Sessions.SaveAndReopenRoundTrip | test/db.js:48-51 | with the corrected calls, opening a file, saving with `flush(callback)`, closing and reopening seeds the engine with exactly the saved image |
| Sessions.FlushLosesCallback | lib/db.js:110-113 | as written, `flush(callback)` writes to a path that is the callback and passes no callback on, and `flush(undefined, callback)` passes `undefined` on; the corrected `flush` writes to the stored path with the callback in both forms |
| Sessions.FlushWithoutLocation | lib/db.js:115-117 | as written, flushing an in-memory database with no path throws "callback is not a function"; the corrected `flush` passes "No location to save the database given." to the callback and writes nothing |

## Left out

- lib/promise.js (`PromisedDatabase`, the promise chain and promise-library detection) is not part of this model. It is sequencing on top of `Database`.
- The Gruntfile and the mocha and chai test setup are build tooling.
- The SQL engine (sql.js) is an opaque input. The model does not interpret queries, parameters, statements or `export()`: their results are passed in as `Cursor`, `EngineFault` and image bytes. `params` is therefore not modelled.
- The file system is an opaque input. `fs.readFile` becomes its result, and `fs.writeFile` becomes a `WriteRequest`. Node's own argument checks on that request are not modelled, for example the TypeError for a function used as a path.
- `new Buffer(...)` is the identity on the exported bytes.
- Asynchrony is not modelled. Callbacks are treated as running once, in issue order, and interleaving with other calls is outside the model.
- `execute` catches exceptions thrown by its own callback and calls the callback a second time. Exceptions thrown from user callbacks are not modelled.
- `Flush` and `FlushFixed` model arguments as `undefined`, `null`, a string or a function. Other falsy values (`0`, `false`, `NaN`) behave like `undefined` in the code and are not enumerated.
- Numbers returned by the engine are modelled as integers. Floating-point values are left out.
- The prototype chain is not modelled, beyond a column shadowing a borrowed method of the same name. A column named `__proto__` is treated as an ordinary key. In JavaScript that assignment would go to `Object.prototype`'s accessor instead.
- The borrowed methods are modelled on the row's positional view (`row[0]` … `row[length-1]`). The model leaves out `thisArg` and the callbacks' third argument (the row itself). It also leaves out callbacks that mutate during the iteration (a frozen row cannot be mutated).
- `indexOf`/`lastIndexOf` compare engine values by content. JavaScript compares blobs (`Uint8Array`) by identity.
- Rows.FrozenColumns: the copy's identity is derived from the array it copies, so two copies of the same unfrozen array (one per row of a query) are not told apart, although JavaScript makes a new array each time.
- Sessions.FileOpenNeverConnects: the calls it makes after the failed `open` assume the process survives the uncaught TypeError, that is, that an `uncaughtException` handler is installed. By default Node prints the error and exits with code 1, so none of those later calls happens.
- `ArrayMethods.Slice`, `ArrayMethods.IndexOfStart` and `ArrayMethods.LastIndexOfStart` take their relative indices as integers. The conversion of non-integer or non-number arguments (`ToIntegerOrInfinity`) is not modelled.
- Sessions.SaveAndReopenRoundTrip: states the round trip at the level of the database image. The engine's guarantee that the same image answers queries the same way is outside the model.

## Findings

| source | as written | input that shows it | evidently intended | confidence | as-written member | corrected member |
|---|---|---|---|---|---|---|
| lib/db.js:63-70 | the `fs.readFile` callback is a plain function under `"use strict"`, so `this` is `undefined` and `this._dbConnection = ...` throws | `new Database("x.db").open(cb)` with a readable file: `cb` never runs, a TypeError escapes, and the database stays Closed (the process exits unless an `uncaughtException` handler is installed) | store the connection on the database and call `cb(null)` | not executed | Sessions.FileOpenNeverConnects | Databases.OpenFixed |
| lib/db.js:110-113 | a falsy `filePath` is moved into `callback`, not `callback` into `filePath`; a lone function argument is taken as the path | `flush(undefined, cb)` on a file-backed database writes with `undefined` as the callback; `flush(cb)` writes to the path `cb`; `flush(cb)` on a Closed database throws "callback is not a function" | `flush([filePath], callback)`: shift the callback when the path is omitted and save to the opening path | not executed | Sessions.FlushLosesCallback | Databases.FlushFixed |
| lib/db.js:115-117 | the "no location" branch has no `return`; because of the shift above, `callback` there is the falsy path, so the call itself throws | `new Database().open(...)` then `flush(undefined, cb)`: throws "callback is not a function" to the caller, and `cb` never hears of it | report "No location to save the database given." to the callback and stop without writing | not executed | Sessions.FlushWithoutLocation | Databases.FlushFixed |
| lib/db.js:163 | `statement.free()` runs only when stepping completes | a query whose `step()` raises an engine fault: the error reaches the callback but the statement is never released | release the statement on both paths (`try`/`finally`) | not executed | Databases.RunQuery | Databases.RunQueryFixed |

=== FILE: array_methods.dfy ===
/** The ten read-only `Array.prototype` methods a Row borrows, as they behave on a
    dense array `s` (one with no holes, which is what a Row's positional view is).
    Callbacks receive the element and its index; the optional `thisArg` and the
    array passed as a third argument are not modelled. */
module ArrayMethods {
  import opened Wrappers
  import opened JsObjects

  // every / some

  function EveryFrom<V>(s: seq<V>, p: (V, nat) -> bool, k: nat): (r: bool)
    requires k <= |s|
    ensures r <==> forall i :: k <= i < |s| ==> p(s[i], i)
    decreases |s| - k
  {
    if k == |s| then true else p(s[k], k) && EveryFrom(s, p, k + 1)
  }

  /** `s.every(p)`: stops at the first element the predicate rejects. */
  function Every<V>(s: seq<V>, p: (V, nat) -> bool): bool {
    EveryFrom(s, p, 0)
  }

  function SomeFrom<V>(s: seq<V>, p: (V, nat) -> bool, k: nat): (r: bool)
    requires k <= |s|
    ensures r <==> exists i :: k <= i < |s| && p(s[i], i)
    decreases |s| - k
  {
    if k == |s| then false else p(s[k], k) || SomeFrom(s, p, k + 1)
  }

  /** `s.some(p)`: stops at the first element the predicate accepts. */
  function SomeOf<V>(s: seq<V>, p: (V, nat) -> bool): bool {
    SomeFrom(s, p, 0)
  }

  /** `some` is the negation of `every` of the negated predicate. */
  lemma SomeIsNotEveryNot<V>(s: seq<V>, p: (V, nat) -> bool)
    ensures SomeOf(s, p) <==> !Every(s, (v, i) => !p(v, i))
  {
  }

  // filter

  function FilterFrom<V>(s: seq<V>, p: (V, nat) -> bool, k: nat): (r: seq<V>)
    requires k <= |s|
    ensures |r| <= |s| - k
    ensures forall y :: y in r ==> exists i :: k <= i < |s| && s[i] == y && p(s[i], i)
    ensures forall i :: k <= i < |s| && p(s[i], i) ==> s[i] in r
    decreases |s| - k
  {
    if k == |s| then [] else (if p(s[k], k) then [s[k]] else []) + FilterFrom(s, p, k + 1)
  }

  /** `s.filter(p)`: the elements the predicate accepts, in order. */
  function Filter<V>(s: seq<V>, p: (V, nat) -> bool): seq<V> {
    FilterFrom(s, p, 0)
  }

  /** Filtering an array with one more element keeps what it kept before, in
      the same order, followed by the new element exactly when it passes. */
  lemma {:induction false} FilterFromSnoc<V>(s: seq<V>, x: V, p: (V, nat) -> bool, k: nat)
    requires k <= |s|
    ensures FilterFrom(s + [x], p, k) == FilterFrom(s, p, k) + (if p(x, |s|) then [x] else [])
    decreases |s| - k
  {
    var t := s + [x];
    if k < |s| {
      assert t[k] == s[k];
      FilterFromSnoc(s, x, p, k + 1);
    } else {
      assert t[k] == x;
      assert FilterFrom(t, p, k + 1) == [];
    }
  }

  /** `filter` is the ordered selection: nothing from `[]`, and one more element
      is appended exactly when it passes at its index. */
  lemma FilterIsOrderedSelection<V>(s: seq<V>, x: V, p: (V, nat) -> bool)
    ensures Filter([], p) == []
    ensures Filter(s + [x], p) == Filter(s, p) + (if p(x, |s|) then [x] else [])
  {
    FilterFromSnoc(s, x, p, 0);
  }

  /** Filtering with a predicate every element passes copies the array. */
  lemma {:induction false} FilterAllPass<V>(s: seq<V>, p: (V, nat) -> bool, k: nat)
    requires k <= |s|
    requires forall i :: k <= i < |s| ==> p(s[i], i)
    ensures FilterFrom(s, p, k) == s[k..]
    decreases |s| - k
  {
    if k < |s| {
      FilterAllPass(s, p, k + 1);
      assert s[k..] == [s[k]] + s[k + 1..];
    }
  }

  // map / forEach

  function MapFrom<V, U>(s: seq<V>, f: (V, nat) -> U, k: nat): (r: seq<U>)
    requires k <= |s|
    ensures |r| == |s| - k
    ensures forall i :: 0 <= i < |r| ==> r[i] == f(s[k + i], k + i)
    decreases |s| - k
  {
    if k == |s| then [] else [f(s[k], k)] + MapFrom(s, f, k + 1)
  }

  /** `s.map(f)`. */
  function Map<V, U>(s: seq<V>, f: (V, nat) -> U): seq<U> {
    MapFrom(s, f, 0)
  }

  /** `s.forEach(f)` returns nothing; what it does is call `f` once per element,
      in index order. The result is that list of calls. */
  function ForEachCalls<V>(s: seq<V>): (calls: seq<(V, nat)>)
    ensures |calls| == |s|
    ensures forall i :: 0 <= i < |s| ==> calls[i] == (s[i], i)
  {
    Map(s, (v, i) => (v, i))
  }

  // reduce / reduceRight

  function ReduceFrom<A, V>(s: seq<V>, f: (A, V, nat) -> A, acc: A, k: nat): A
    requires k <= |s|
    decreases |s| - k
  {
    if k == |s| then acc else ReduceFrom(s, f, f(acc, s[k], k), k + 1)
  }

  /** `s.reduce(f, init)`. */
  function ReduceWith<A, V>(s: seq<V>, f: (A, V, nat) -> A, init: A): A {
    ReduceFrom(s, f, init, 0)
  }

  /** `s.reduce(f)` with no initial value: the first element seeds the
      accumulator, and an empty array throws. */
  function Reduce<V>(s: seq<V>, f: (V, V, nat) -> V): (r: Result<V, TypeError>)
    ensures r.Failure? <==> |s| == 0
    ensures r.Failure? ==> r.error == EmptyReduce
    ensures |s| == 1 ==> r == Success(s[0])
  {
    if |s| == 0 then Failure(EmptyReduce) else Success(ReduceFrom(s, f, s[0], 1))
  }

  lemma {:induction false} ReduceFromSnoc<A, V>(s: seq<V>, x: V, f: (A, V, nat) -> A, acc: A, k: nat)
    requires k <= |s|
    ensures ReduceFrom(s + [x], f, acc, k) == f(ReduceFrom(s, f, acc, k), x, |s|)
    decreases |s| - k
  {
    var t := s + [x];
    if k < |s| {
      assert t[k] == s[k];
      ReduceFromSnoc(s, x, f, f(acc, s[k], k), k + 1);
    } else {
      assert t[k] == x;
    }
  }

  /** `reduce` is the left fold: appending an element applies the callback once
      more, to the previous result, that element and its index. */
  lemma ReduceWithIsLeftFold<A, V>(s: seq<V>, x: V, f: (A, V, nat) -> A, init: A)
    ensures ReduceWith([], f, init) == init
    ensures ReduceWith(s + [x], f, init) == f(ReduceWith(s, f, init), x, |s|)
  {
    ReduceFromSnoc(s, x, f, init, 0);
  }

  /** `reduce` with no initial value is the left fold seeded by the first
      element: appending an element applies the callback once more. */
  lemma ReduceSeededByFirst<V>(s: seq<V>, x: V, f: (V, V, nat) -> V)
    requires |s| > 0
    ensures Reduce(s + [x], f) == Success(f(Reduce(s, f).value, x, |s|))
  {
    assert (s + [x])[0] == s[0];
    ReduceFromSnoc(s, x, f, s[0], 1);
  }

  function ReduceRightFrom<A, V>(s: seq<V>, f: (A, V, nat) -> A, acc: A, k: nat): A
    requires k <= |s|
    decreases k
  {
    if k == 0 then acc else ReduceRightFrom(s, f, f(acc, s[k - 1], k - 1), k - 1)
  }

  /** `s.reduceRight(f, init)`: visits indices from the last down to 0. */
  function ReduceRightWith<A, V>(s: seq<V>, f: (A, V, nat) -> A, init: A): A {
    ReduceRightFrom(s, f, init, |s|)
  }

  /** `s.reduceRight(f)` with no initial value: the last element seeds it. */
  function ReduceRight<V>(s: seq<V>, f: (V, V, nat) -> V): (r: Result<V, TypeError>)
    ensures r.Failure? <==> |s| == 0
    ensures r.Failure? ==> r.error == EmptyReduce
    ensures |s| == 1 ==> r == Success(s[0])
  {
    if |s| == 0 then Failure(EmptyReduce) else Success(ReduceRightFrom(s, f, s[|s| - 1], |s| - 1))
  }

  function Reverse<V>(s: seq<V>): (r: seq<V>)
    ensures |r| == |s|
    ensures forall i :: 0 <= i < |s| ==> r[i] == s[|s| - 1 - i]
  {
    seq(|s|, i requires 0 <= i < |s| => s[|s| - 1 - i])
  }

  /** The callback `f` seen from the reversed array: index `i` there is index
      `n - 1 - i` in the original. */
  function Mirror<A, V>(f: (A, V, nat) -> A, n: nat): (A, V, nat) -> A {
    (a: A, v: V, i: nat) => f(a, v, if i < n then n - 1 - i else 0)
  }

  lemma {:induction false} ReduceRightFromIsReduceOfReverse<A, V>(s: seq<V>, f: (A, V, nat) -> A, acc: A, k: nat)
    requires k <= |s|
    ensures ReduceRightFrom(s, f, acc, k) == ReduceFrom(Reverse(s), Mirror(f, |s|), acc, |s| - k)
    decreases k
  {
    if k > 0 {
      var rev := Reverse(s);
      var g := Mirror(f, |s|);
      assert rev[|s| - k] == s[k - 1];
      assert g(acc, s[k - 1], |s| - k) == f(acc, s[k - 1], k - 1);
      ReduceRightFromIsReduceOfReverse(s, f, f(acc, s[k - 1], k - 1), k - 1);
    }
  }

  /** `reduceRight` is `reduce` over the reversed array, each callback still
      seeing the element's original index. */
  lemma ReduceRightIsReduceOfReverse<A, V>(s: seq<V>, f: (A, V, nat) -> A, init: A)
    ensures ReduceRightWith(s, f, init) == ReduceWith(Reverse(s), Mirror(f, |s|), init)
  {
    ReduceRightFromIsReduceOfReverse(s, f, init, |s|);
  }

  /** Folding from the right up to position `k` reads nothing past `k`. */
  lemma {:induction false} ReduceRightFromIgnoresSuffix<A, V>(s: seq<V>, t: seq<V>, f: (A, V, nat) -> A, acc: A, k: nat)
    requires k <= |s|
    ensures ReduceRightFrom(s + t, f, acc, k) == ReduceRightFrom(s, f, acc, k)
    decreases k
  {
    if k > 0 {
      assert (s + t)[k - 1] == s[k - 1];
      ReduceRightFromIgnoresSuffix(s, t, f, f(acc, s[k - 1], k - 1), k - 1);
    }
  }

  /** `reduceRight` with no initial value is `reduceRight` over the other
      elements seeded by the last one. */
  lemma ReduceRightSeededByLast<V>(s: seq<V>, x: V, f: (V, V, nat) -> V)
    ensures ReduceRight(s + [x], f) == Success(ReduceRightWith(s, f, x))
  {
    assert (s + [x])[|s|] == x;
    ReduceRightFromIgnoresSuffix(s, [x], f, x, |s|);
  }

  // slice

  /** How `slice` clamps a relative position: negative counts from the end. */
  function RelativeIndex(rel: int, len: nat): (k: nat)
    ensures k <= len
    ensures 0 <= rel <= len ==> k == rel
    ensures -(len as int) <= rel < 0 ==> k == len + rel
    ensures rel > len ==> k == len
    ensures rel < -(len as int) ==> k == 0
  {
    if rel < 0 then (if len + rel < 0 then 0 else len + rel)
    else if rel < len then rel else len
  }

  /** `s.slice(start, end)`, `end` absent meaning the length. */
  function Slice<V>(s: seq<V>, start: int, end: Option<int>): (r: seq<V>)
    ensures var from := RelativeIndex(start, |s|);
            var to := RelativeIndex(end.GetOr(|s|), |s|);
            |r| == (if from <= to then to - from else 0) &&
            forall i :: 0 <= i < |r| ==> r[i] == s[from + i]
  {
    var from := RelativeIndex(start, |s|);
    var to := RelativeIndex(end.GetOr(|s|), |s|);
    if from < to then s[from..to] else []
  }

  /** `slice()` copies the whole array. */
  lemma SliceCopies<V>(s: seq<V>)
    ensures Slice(s, 0, None) == s
  {
    assert s[0..|s|] == s;
  }

  /** `slice(-k)` keeps the last `k` elements. */
  lemma SliceNegativeStart<V>(s: seq<V>, k: nat)
    requires 0 < k <= |s|
    ensures Slice(s, -(k as int), None) == s[|s| - k..]
  {
    assert s[|s| - k..|s|] == s[|s| - k..];
  }

  /** The two slices at a cut point put back together give the whole array. */
  lemma SliceAtCut<V>(s: seq<V>, m: nat)
    requires m <= |s|
    ensures Slice(s, 0, Wrappers.Some(m)) + Slice(s, m, None) == s
  {
    var left := Slice(s, 0, Wrappers.Some(m));
    var right := Slice(s, m, None);
    assert left == s[..m];
    assert right == s[m..];
    assert s[..m] + s[m..] == s;
  }

  // indexOf / lastIndexOf

  /** The first index `indexOf` examines; the length when it examines none. */
  function IndexOfStart(len: nat, fromIndex: Option<int>): (k: nat)
    ensures k <= len
    ensures fromIndex.None? ==> k == 0
    ensures fromIndex.Some? && 0 <= fromIndex.value <= len ==> k == fromIndex.value
    ensures fromIndex.Some? && -(len as int) <= fromIndex.value < 0 ==> k == len + fromIndex.value
    ensures fromIndex.Some? && fromIndex.value > len ==> k == len
    ensures fromIndex.Some? && fromIndex.value < -(len as int) ==> k == 0
  {
    var n := fromIndex.GetOr(0);
    if n >= len then len
    else if n >= 0 then n
    else if len + n < 0 then 0
    else len + n
  }

  function IndexOfFrom<V(==)>(s: seq<V>, x: V, k: nat): (r: int)
    requires k <= |s|
    ensures -1 <= r < |s|
    ensures r >= 0 ==> k <= r && s[r] == x && forall j :: k <= j < r ==> s[j] != x
    ensures r == -1 ==> forall j :: k <= j < |s| ==> s[j] != x
    decreases |s| - k
  {
    if k == |s| then -1 else if s[k] == x then k else IndexOfFrom(s, x, k + 1)
  }

  /** `s.indexOf(x, fromIndex)`, strict equality being value equality here. */
  function IndexOf<V(==)>(s: seq<V>, x: V, fromIndex: Option<int>): int {
    IndexOfFrom(s, x, IndexOfStart(|s|, fromIndex))
  }

  /** The last index `lastIndexOf` examines first; -1 when it examines none. */
  function LastIndexOfStart(len: nat, fromIndex: Option<int>): (k: int)
    ensures -1 <= k < len
    ensures fromIndex.None? ==> k == len - 1
    ensures fromIndex.Some? && 0 <= fromIndex.value < len ==> k == fromIndex.value
    ensures fromIndex.Some? && -(len as int) <= fromIndex.value < 0 ==> k == len + fromIndex.value
    ensures fromIndex.Some? && fromIndex.value >= len ==> k == len - 1
    ensures fromIndex.Some? && fromIndex.value < -(len as int) ==> k == -1
  {
    if len == 0 then -1
    else
      var n := fromIndex.GetOr(len - 1);
      if n >= 0 then (if n < len then n else len - 1)
      else if len + n < 0 then -1
      else len + n
  }

  function LastIndexOfFrom<V(==)>(s: seq<V>, x: V, k: int): (r: int)
    requires -1 <= k < |s|
    ensures -1 <= r <= k
    ensures r >= 0 ==> s[r] == x && forall j :: r < j <= k ==> s[j] != x
    ensures r == -1 ==> forall j :: 0 <= j <= k ==> s[j] != x
    decreases k + 1
  {
    if k < 0 then -1 else if s[k] == x then k else LastIndexOfFrom(s, x, k - 1)
  }

  /** `s.lastIndexOf(x, fromIndex)`. */
  function LastIndexOf<V(==)>(s: seq<V>, x: V, fromIndex: Option<int>): int {
    LastIndexOfFrom(s, x, LastIndexOfStart(|s|, fromIndex))
  }

  /** Searched over the whole array, `indexOf` finds the first occurrence and
      `lastIndexOf` the last; they agree only when `x` occurs at most once. */
  lemma SearchesFromBothEnds<V>(s: seq<V>, x: V)
    ensures IndexOf(s, x, None) == -1 <==> x !in s
    ensures LastIndexOf(s, x, None) == -1 <==> x !in s
    ensures x in s ==> IndexOf(s, x, None) <= LastIndexOf(s, x, None)
    ensures x in s && IndexOf(s, x, None) == LastIndexOf(s, x, None) ==>
      forall i, j :: 0 <= i < j < |s| && s[i] == x ==> s[j] != x
  {
  }

  /** A value that occurs exactly once is found at that position by both
      searches. */
  lemma SingleOccurrenceFoundByBoth<V>(s: seq<V>, x: V, i: nat)
    requires i < |s| && s[i] == x
    requires forall j :: 0 <= j < |s| && j != i ==> s[j] != x
    ensures IndexOf(s, x, None) == i && LastIndexOf(s, x, None) == i
  {
  }
}

=== FILE: databases.dfy ===
/** The `Database` connection of lib/db.js as pure transitions. The SQL engine
    and the file system are not modelled: what they would return is passed in
    (the bytes a file read yields or its I/O error, the cursor a prepared
    statement walks or its engine fault, the image `export()` produces), and
    what the adaptor asks of the file system comes back as a write request.
    Each operation's reply says what its callback receives, or what is thrown. */
module Databases {
  import opened Wrappers
  import opened JsObjects
  import opened Rows
  import RowProperties

  datatype IoError = IoError(code: string)
  datatype EngineFault = EngineFault(message: string)

  /** An open engine session, seeded with a database image. */
  datatype Connection = Connection(image: seq<bv8>)

  /** `filePath` as given to the constructor (absent: `undefined`), and the
      `_dbConnection` reference: absent is Closed, present is Open. */
  datatype Database = Database(filePath: Option<string>, connection: Option<Connection>)

  /** The error values the callbacks receive or the operations throw. */
  datatype DbError =
    | Error(message: string)
    | Io(io: IoError)
    | Engine(fault: EngineFault)
    | JsTypeError(message: string)

  const AlreadyOpened: string := "Database already opened."
  const NoDatabase: string := "No database opened."
  const NoLocation: string := "No location to save the database given."
  const NotAFunction: string := "callback is not a function"
  /** V8's wording for assigning a property of `undefined`, in the older V8
      releases (Node 14 and earlier) whose messages `JsObjects.Message` and the
      test suite's regexes also use. */
  const NoThis: string := "Cannot set property '_dbConnection' of undefined"

  /** What came of a call: the callback ran with this error (absent for success),
      the call threw to its caller, an exception escaped an asynchronous callback
      with nobody to catch it, or the callback was handed to the file system. */
  datatype Reply = Called(argument: Option<DbError>) | Thrown(exception: DbError) | Uncaught(exception: DbError) | HandedOff

  datatype Transition = Transition(db: Database, reply: Reply)

  /** `new Database(filePath)`: Closed. */
  function NewDatabase(filePath: Option<string>): (db: Database)
    ensures db.connection.None? && db.filePath == filePath
  {
    Database(filePath, None)
  }

  /** JavaScript truthiness of the stored path: absent and "" are falsy. */
  predicate HasPath(filePath: Option<string>) {
    filePath.Some? && filePath.value != ""
  }

  // open

  /** `open(callback)` as written, `read` being what `fs.readFile` delivers. The
      read callback is a plain function, so under strict mode its `this` is
      undefined: storing the connection throws there, the user's callback never
      runs, and the database stays Closed. */
  function Open(db: Database, read: Result<seq<bv8>, IoError>): (t: Transition)
    ensures t.db.filePath == db.filePath
    ensures db.connection.Some? ==> t == Transition(db, Called(Some(Error(AlreadyOpened))))
    ensures db.connection.None? && !HasPath(db.filePath) ==>
      t.db.connection == Some(Connection([])) && t.reply == Called(None)
    ensures db.connection.None? && HasPath(db.filePath) ==> t.db == db
    ensures db.connection.None? && HasPath(db.filePath) && read.Failure? ==> t.reply == Called(Some(Io(read.error)))
    ensures t.db.connection.Some? <==> db.connection.Some? || !HasPath(db.filePath)
  {
    if db.connection.Some? then Transition(db, Called(Some(Error(AlreadyOpened))))
    else if !HasPath(db.filePath) then Transition(db.(connection := Some(Connection([]))), Called(None))
    else match read
      case Failure(e) => Transition(db, Called(Some(Io(e))))
      case Success(bytes) => Transition(db, Uncaught(JsTypeError(NoThis)))
  }

  /** `open` with the read callback bound to the database, as evidently intended:
      a successful read opens the database on the bytes read. */
  function OpenFixed(db: Database, read: Result<seq<bv8>, IoError>): (t: Transition)
    ensures t.db.filePath == db.filePath
    ensures db.connection.Some? ==> t == Transition(db, Called(Some(Error(AlreadyOpened))))
    ensures db.connection.None? ==> (t.reply == Called(None) <==> !HasPath(db.filePath) || read.Success?)
    ensures db.connection.None? && t.reply == Called(None) ==>
      t.db.connection == Some(Connection(if HasPath(db.filePath) then read.value else []))
    ensures t.reply != Called(None) ==> t.db == db
  {
    if db.connection.Some? then Transition(db, Called(Some(Error(AlreadyOpened))))
    else if !HasPath(db.filePath) then Transition(db.(connection := Some(Connection([]))), Called(None))
    else match read
      case Failure(e) => Transition(db, Called(Some(Io(e))))
      case Success(bytes) => Transition(db.(connection := Some(Connection(bytes))), Called(None))
  }

  // close

  /** `close(callback)`. */
  function Close(db: Database): (t: Transition)
    ensures t.db.filePath == db.filePath && t.db.connection.None?
    ensures t.reply == Called(None) <==> db.connection.Some?
    ensures db.connection.None? ==> t == Transition(db, Called(Some(Error(NoDatabase))))
  {
    if db.connection.None? then Transition(db, Called(Some(Error(NoDatabase))))
    else Transition(db.(connection := None), Called(None))
  }

  // execute / _runQuery

  /** One `step()` that returned true: what `getColumnNames()` and `get()` give. */
  datatype Step = Step(columnNames: NameArray, values: seq<SqlValue>)

  /** A prepared statement as its cursor: the steps returning true, then either
      a step returning false (`end` absent) or one raising `end`. */
  datatype Cursor = Cursor(steps: seq<Step>, end: Option<EngineFault>)

  /** The result array, and whether it was frozen. */
  datatype RowList = RowList(rows: seq<RowObject>, frozen: bool)

  /** The rows `_runQuery` builds: one per step, all named by the column names
      fetched on the first step. */
  function QueryRows(steps: seq<Step>): (rows: seq<RowObject>)
    ensures |rows| == |steps|
    ensures forall k :: 0 <= k < |steps| ==>
      rows[k] == NewRow(steps[0].columnNames, steps[k].values).value
  {
    if |steps| == 0 then []
    else seq(|steps|, k requires 0 <= k < |steps| => NewRow(steps[0].columnNames, steps[k].values).value)
  }

  /** Every row of a query is frozen, keeps its values by position when no column
      spells an index, and carries the first step's column names as `_keys`. */
  lemma QueryRowsShape(steps: seq<Step>, k: nat)
    requires k < |steps|
    ensures var row := QueryRows(steps)[k];
      && Frozen(row)
      && row.props[LengthKey].value == Count(|steps[k].values|)
      && row.props[KeysKey].value == Keys(FrozenColumns(steps[0].columnNames))
    ensures RowProperties.NoColumnSpellsIndex(steps[0].columnNames, |steps[k].values|) ==>
      && RowProperties.IsRow(QueryRows(steps)[k])
      && RowProperties.Positional(QueryRows(steps)[k]) == steps[k].values
  {
    if RowProperties.NoColumnSpellsIndex(steps[0].columnNames, |steps[k].values|) {
      RowProperties.PositionalIsValues(steps[0].columnNames, steps[k].values);
    }
  }

  lemma QueryRowsPrefix(steps: seq<Step>, i: nat)
    requires i < |steps|
    ensures QueryRows(steps)[..i + 1]
         == QueryRows(steps)[..i] + [NewRow(steps[0].columnNames, steps[i].values).value]
  {
    PrefixGrows(QueryRows(steps), i);
  }

  lemma PrefixGrows<T>(s: seq<T>, i: nat)
    requires i < |s|
    ensures s[..i + 1] == s[..i] + [s[i]]
  {
  }

  /** `_runQuery(query, params)`, `prepare` being what the engine's `prepare`
      returns or raises. Returns the frozen rows, or the fault raised, and
      whether `statement.free()` was reached. */
  method RunQuery(prepare: Result<Cursor, EngineFault>) returns (r: Result<RowList, EngineFault>, freed: bool)
    ensures prepare.Failure? ==> r == Failure(prepare.error) && !freed
    ensures prepare.Success? && prepare.value.end.Some? ==> r == Failure(prepare.value.end.value) && !freed
    ensures prepare.Success? && prepare.value.end.None? ==>
      freed && r == Success(RowList(QueryRows(prepare.value.steps), true))
  {
    if prepare.Failure? {
      return Failure(prepare.error), false;
    }
    var cursor := prepare.value;
    var columns: Option<NameArray> := None;
    var rows: seq<RowObject> := [];
    var i := 0;
    while i < |cursor.steps|
      invariant 0 <= i <= |cursor.steps|
      invariant columns.None? <==> i == 0
      invariant i > 0 ==> columns == Some(cursor.steps[0].columnNames)
      invariant rows == QueryRows(cursor.steps)[..i]
    {
      if columns.None? {
        columns := Some(cursor.steps[i].columnNames);
      }
      var row := NewRow(columns.value, cursor.steps[i].values);
      QueryRowsPrefix(cursor.steps, i);
      rows := rows + [row.value];
      i := i + 1;
    }
    if cursor.end.Some? {
      return Failure(cursor.end.value), false;
    }
    assert QueryRows(cursor.steps)[..i] == QueryRows(cursor.steps);
    return Success(RowList(rows, true)), true;
  }

  /** `_runQuery` with `free()` in a `finally` block, as evidently intended: a
      prepared statement is released whether or not stepping raises. */
  method RunQueryFixed(prepare: Result<Cursor, EngineFault>) returns (r: Result<RowList, EngineFault>, freed: bool)
    ensures freed <==> prepare.Success?
    ensures prepare.Failure? ==> r == Failure(prepare.error)
    ensures prepare.Success? && prepare.value.end.Some? ==> r == Failure(prepare.value.end.value)
    ensures prepare.Success? && prepare.value.end.None? ==> r == Success(RowList(QueryRows(prepare.value.steps), true))
  {
    r, freed := RunQuery(prepare);
    freed := prepare.Success?;
  }

  datatype ExecReply = Rows(list: RowList) | ExecError(error: DbError)

  /** What `execute` did: its callback's argument, whether a statement was
      prepared, and whether it was released. */
  datatype ExecOutcome = ExecOutcome(reply: ExecReply, prepared: bool, freed: bool)

  /** `execute(query, params, callback)`. The database itself is never changed. */
  method Execute(db: Database, prepare: Result<Cursor, EngineFault>) returns (out: ExecOutcome)
    ensures db.connection.None? ==> out == ExecOutcome(ExecError(Error(NoDatabase)), false, false)
    ensures db.connection.Some? ==> out.prepared
    ensures db.connection.Some? && prepare.Failure? ==> out.reply == ExecError(Engine(prepare.error)) && !out.freed
    ensures db.connection.Some? && prepare.Success? && prepare.value.end.Some? ==>
      out.reply == ExecError(Engine(prepare.value.end.value)) && !out.freed
    ensures db.connection.Some? && prepare.Success? && prepare.value.end.None? ==>
      out.reply == Rows(RowList(QueryRows(prepare.value.steps), true)) && out.freed
  {
    if db.connection.None? {
      return ExecOutcome(ExecError(Error(NoDatabase)), false, false);
    }
    var r, freed := RunQuery(prepare);
    match r
    case Success(list) => out := ExecOutcome(Rows(list), true, freed);
    case Failure(f) => out := ExecOutcome(ExecError(Engine(f)), true, freed);
  }

  /** `execute` on top of the corrected `_runQuery`. */
  method ExecuteFixed(db: Database, prepare: Result<Cursor, EngineFault>) returns (out: ExecOutcome)
    ensures db.connection.None? ==> out == ExecOutcome(ExecError(Error(NoDatabase)), false, false)
    ensures db.connection.Some? ==> out.prepared && (out.freed <==> prepare.Success?)
    ensures db.connection.Some? && prepare.Failure? ==> out.reply == ExecError(Engine(prepare.error))
    ensures db.connection.Some? && prepare.Success? && prepare.value.end.Some? ==>
      out.reply == ExecError(Engine(prepare.value.end.value))
    ensures db.connection.Some? && prepare.Success? && prepare.value.end.None? ==>
      out.reply == Rows(RowList(QueryRows(prepare.value.steps), true))
  {
    if db.connection.None? {
      return ExecOutcome(ExecError(Error(NoDatabase)), false, false);
    }
    var r, freed := RunQueryFixed(prepare);
    match r
    case Success(list) => out := ExecOutcome(Rows(list), true, freed);
    case Failure(f) => out := ExecOutcome(ExecError(Engine(f)), true, freed);
  }

  // flush

  /** A JavaScript argument as `flush` can receive it. */
  datatype Arg = Undefined | Null | Str(s: string) | Function

  predicate Truthy(a: Arg) {
    a.Function? || (a.Str? && a.s != "")
  }

  /** `!x` on the arguments `flush` can receive, per ToBoolean (section 7.1.2 of
      ECMA-262): `undefined`, `null` and the empty string are falsy, a non-empty
      string and a function are truthy. */
  lemma ToBooleanTable(s: string)
    ensures !Truthy(Undefined) && !Truthy(Arg.Null) && !Truthy(Str(""))
    ensures Truthy(Function)
    ensures s != "" ==> Truthy(Str(s))
    ensures !HasPath(None) && !HasPath(Some(""))
    ensures s != "" ==> HasPath(Some(s))
  {
  }

  function PathArg(filePath: Option<string>): (a: Arg)
    ensures Truthy(a) <==> HasPath(filePath)
  {
    match filePath
    case None => Undefined
    case Some(p) => Str(p)
  }

  /** `fs.writeFile(path, data, callback)` as handed to the file system. */
  datatype WriteRequest = WriteRequest(path: Arg, data: seq<bv8>, callback: Arg)

  datatype FlushOutcome = FlushOutcome(reply: Reply, write: Option<WriteRequest>)

  /** `callback(error)`: a value that is not a function throws instead. */
  function Invoke(callback: Arg, error: DbError): (r: Reply)
    ensures r.Called? <==> callback.Function?
    ensures r.Called? ==> r.argument == Some(error)
    ensures !callback.Function? ==> r == Thrown(JsTypeError(NotAFunction))
  {
    if callback.Function? then Called(Some(error)) else Thrown(JsTypeError(NotAFunction))
  }

  /** `flush(filePath, callback)` as written, `exported` being the image
      `export()` returns. A falsy path is shifted into `callback`, and the "no
      location" branch does not return. */
  function Flush(db: Database, filePath: Arg, callback: Arg, exported: seq<bv8>): (out: FlushOutcome)
    ensures db.connection.None? ==> out == FlushOutcome(Invoke(callback, Error(NoDatabase)), None)
    ensures db.connection.Some? && Truthy(filePath) ==>
      out == FlushOutcome(HandedOff, Some(WriteRequest(filePath, exported, callback)))
    ensures db.connection.Some? && !Truthy(filePath) && HasPath(db.filePath) ==>
      out == FlushOutcome(HandedOff, Some(WriteRequest(PathArg(db.filePath), exported, filePath)))
    ensures db.connection.Some? && !Truthy(filePath) && !HasPath(db.filePath) ==>
      out == FlushOutcome(Thrown(JsTypeError(NotAFunction)), None)
  {
    if db.connection.None? then FlushOutcome(Invoke(callback, Error(NoDatabase)), None)
    else
      var (cb, path) := if !Truthy(filePath) then (filePath, PathArg(db.filePath)) else (callback, filePath);
      if !Truthy(path) then
        var reply := Invoke(cb, Error(NoLocation));
        if reply.Thrown? then FlushOutcome(reply, None)
        else FlushOutcome(reply, Some(WriteRequest(path, exported, cb)))
      else FlushOutcome(HandedOff, Some(WriteRequest(path, exported, cb)))
  }

  /** `flush` as evidently intended: a function in first place is the callback
      (the one-argument form), any other falsy path falls back to the opening
      path, and a missing location is reported and stops the call. */
  function FlushFixed(db: Database, filePath: Arg, callback: Arg, exported: seq<bv8>): (out: FlushOutcome)
    ensures var cb := if filePath.Function? then filePath else callback;
      var path := if filePath.Str? && filePath.s != "" then filePath else PathArg(db.filePath);
      && (db.connection.None? ==> out == FlushOutcome(Invoke(cb, Error(NoDatabase)), None))
      && (db.connection.Some? && Truthy(path) ==> out == FlushOutcome(HandedOff, Some(WriteRequest(path, exported, cb))))
      && (db.connection.Some? && !Truthy(path) ==> out == FlushOutcome(Invoke(cb, Error(NoLocation)), None))
    ensures out.write.Some? ==> out.write.value.path.Str? && out.write.value.path.s != ""
  {
    var (cb, path) :=
      if filePath.Function? then (filePath, PathArg(db.filePath))
      else if !Truthy(filePath) then (callback, PathArg(db.filePath))
      else (callback, filePath);
    if db.connection.None? then FlushOutcome(Invoke(cb, Error(NoDatabase)), None)
    else if !Truthy(path) then FlushOutcome(Invoke(cb, Error(NoLocation)), None)
    else FlushOutcome(HandedOff, Some(WriteRequest(path, exported, cb)))
  }
}

=== FILE: decimal_keys.dfy ===
/** Property keys of array indices. JavaScript converts an index `i` used as
    `o[i]` to the property key ToString(i), its shortest decimal spelling, so the
    index `0` and the name "0" reach the same property. */
module DecimalKeys {

  predicate IsDigit(c: char) {
    '0' <= c <= '9'
  }

  predicate IsDigitString(s: string) {
    forall k :: 0 <= k < |s| ==> IsDigit(s[k])
  }

  function DigitChar(d: nat): (c: char)
    requires d < 10
    ensures IsDigit(c)
    ensures c == '0' <==> d == 0
  {
    (('0' as int) + d) as char
  }

  function DigitValue(c: char): (d: nat)
    requires IsDigit(c)
    ensures d < 10
  {
    (c as int) - ('0' as int)
  }

  /** The property key of index `i`: its decimal spelling without leading zeros. */
  function IndexKey(i: nat): (s: string)
    ensures 1 <= |s|
    ensures IsDigitString(s)
    ensures s[0] == '0' <==> i == 0
  {
    if i < 10 then [DigitChar(i)] else IndexKey(i / 10) + [DigitChar(i % 10)]
  }

  /** Reads a string of decimal digits back as a number. */
  function ParseDecimal(s: string): nat
    requires IsDigitString(s)
  {
    if |s| == 0 then 0 else ParseDecimal(s[..|s| - 1]) * 10 + DigitValue(s[|s| - 1])
  }

  /** Reading the key of an index gives the index back. */
  lemma {:induction false} ParseIndexKey(i: nat)
    ensures ParseDecimal(IndexKey(i)) == i
  {
    if i >= 10 {
      var prefix := IndexKey(i / 10);
      var s := prefix + [DigitChar(i % 10)];
      assert IndexKey(i) == s;
      assert s[..|s| - 1] == prefix;
      ParseIndexKey(i / 10);
    }
  }

  /** Two indices share a property key exactly when they are the same index. */
  lemma IndexKeyInjective(i: nat, j: nat)
    ensures IndexKey(i) == IndexKey(j) <==> i == j
  {
    if IndexKey(i) == IndexKey(j) {
      ParseIndexKey(i);
      ParseIndexKey(j);
    }
  }

  /** A key whose first character is not a digit is the key of no index. */
  lemma NotAnIndexKey(s: string, i: nat)
    requires 1 <= |s| && !IsDigit(s[0])
    ensures s != IndexKey(i)
  {
  }
}

=== FILE: js_objects.dfy ===
/** The slice of JavaScript's ordinary-object semantics that a Row relies on: own
    data properties with their attribute flags, strict-mode assignment, `delete`,
    `Object.defineProperty` with a value and an enumerability, and `Object.freeze`.
    The prototype chain is not modelled; see the README. */
module JsObjects {
  import opened Wrappers

  /** An own data property and its attributes. */
  datatype Prop<T> = Prop(value: T, writable: bool, enumerable: bool, configurable: bool)

  /** An object: its own properties by key, and whether new ones may be added. */
  datatype Obj<T> = Obj(props: map<string, Prop<T>>, extensible: bool)

  /** The TypeErrors strict-mode code receives from the operations below. */
  datatype TypeError =
    | ReadOnly(key: string)
    | NotExtensible(key: string)
    | NotDeletable(key: string)
    | NotRedefinable(key: string)
    | NotCallable(name: string)
    | EmptyReduce

  /** The text V8 opens each error message with, in the wording of older V8
      releases (Node 14 and earlier) that the test suite's regexes match. */
  function Message(e: TypeError): string {
    match e
    case ReadOnly(k) => "Cannot assign to read only property '" + k + "'"
    case NotExtensible(k) => "Can't add property " + k + ", object is not extensible"
    case NotDeletable(k) => "Cannot delete property '" + k + "'"
    case NotRedefinable(k) => "Cannot redefine property: " + k
    case NotCallable(n) => n + " is not a function"
    case EmptyReduce => "Reduce of empty array with no initial value"
  }

  /** The messages of the three errors a frozen object raises start with the
      words a caller matches them by. */
  lemma MessagePrefixes(key: string)
    ensures "Cannot assign to read only property" <= Message(ReadOnly(key))
    ensures "Can't add property" <= Message(NotExtensible(key))
    ensures "Cannot delete property" <= Message(NotDeletable(key))
  {
  }

  /** A fresh `{}`-like object: no own properties, extensible. */
  function EmptyObject<T>(): Obj<T> {
    Obj(map[], true)
  }

  /** The keys `Object.keys` and `for-in` report as own keys. */
  function EnumerableKeys<T>(o: Obj<T>): set<string> {
    set k | k in o.props && o.props[k].enumerable
  }

  /** Strict-mode `o[key] = v`. An own property is overwritten when writable; a
      missing one is created (writable, enumerable, configurable) when the object
      is extensible; every other case throws. */
  function Put<T>(o: Obj<T>, key: string, v: T): (r: Result<Obj<T>, TypeError>)
    ensures r.Failure? <==> (key in o.props && !o.props[key].writable) || (key !in o.props && !o.extensible)
    ensures r.Failure? ==> r.error == (if key in o.props then ReadOnly(key) else NotExtensible(key))
    ensures r.Success? ==> r.value.props.Keys == o.props.Keys + {key} && r.value.props[key].value == v
    ensures r.Success? ==> r.value.extensible == o.extensible
    ensures r.Success? && key in o.props ==> r.value.props[key] == o.props[key].(value := v)
    ensures r.Success? && key !in o.props ==> r.value.props[key] == Prop(v, true, true, true)
    ensures r.Success? ==> forall k :: k in o.props && k != key ==> r.value.props[k] == o.props[k]
  {
    if key in o.props then
      if o.props[key].writable then Success(o.(props := o.props[key := o.props[key].(value := v)]))
      else Failure(ReadOnly(key))
    else if o.extensible then Success(o.(props := o.props[key := Prop(v, true, true, true)]))
    else Failure(NotExtensible(key))
  }

  /** Strict-mode `delete o[key]`. Deleting a key the object does not own succeeds
      and changes nothing; deleting a non-configurable own property throws. */
  function Delete<T>(o: Obj<T>, key: string): (r: Result<Obj<T>, TypeError>)
    ensures r.Failure? <==> key in o.props && !o.props[key].configurable
    ensures r.Failure? ==> r.error == NotDeletable(key)
    ensures r.Success? ==> r.value.props.Keys == o.props.Keys - {key} && r.value.extensible == o.extensible
    ensures r.Success? ==> forall k :: k in r.value.props ==> r.value.props[k] == o.props[k]
  {
    if key in o.props then
      if o.props[key].configurable then Success(o.(props := o.props - {key}))
      else Failure(NotDeletable(key))
    else Success(o)
  }

  /** `Object.defineProperty(o, key, {value: v, enumerable: e})`. An existing
      property keeps the attributes the descriptor leaves out; a new one gets
      writable and configurable false. A non-configurable property can only be
      redefined to what it already is, or have a writable value replaced. */
  function DefineValue<T(==)>(o: Obj<T>, key: string, v: T, enumerable: bool): (r: Result<Obj<T>, TypeError>)
    ensures r.Success? ==> r.value.props.Keys == o.props.Keys + {key} && r.value.extensible == o.extensible
    ensures r.Success? ==> r.value.props[key].value == v && r.value.props[key].enumerable == enumerable
    ensures r.Success? && key in o.props ==>
      r.value.props[key].writable == o.props[key].writable && r.value.props[key].configurable == o.props[key].configurable
    ensures r.Success? && key !in o.props ==> !r.value.props[key].writable && !r.value.props[key].configurable
    ensures r.Success? ==> forall k :: k in o.props && k != key ==> r.value.props[k] == o.props[k]
    ensures key in o.props && o.props[key].configurable ==> r.Success?
    ensures key !in o.props ==> (r.Success? <==> o.extensible)
  {
    if key in o.props then
      var p := o.props[key];
      if !p.configurable && (p.enumerable != enumerable || (!p.writable && p.value != v)) then
        Failure(NotRedefinable(key))
      else
        Success(o.(props := o.props[key := p.(value := v, enumerable := enumerable)]))
    else if o.extensible then
      Success(o.(props := o.props[key := Prop(v, false, enumerable, false)]))
    else
      Failure(NotExtensible(key))
  }

  /** Every own property read-only and non-configurable, and no new property allowed. */
  predicate Frozen<T>(o: Obj<T>) {
    && !o.extensible
    && forall k :: k in o.props ==> !o.props[k].writable && !o.props[k].configurable
  }

  /** `Object.freeze(o)`. */
  function Freeze<T>(o: Obj<T>): (r: Obj<T>)
    ensures Frozen(r)
    ensures r.props.Keys == o.props.Keys
    ensures forall k :: k in o.props ==> r.props[k].value == o.props[k].value && r.props[k].enumerable == o.props[k].enumerable
  {
    Obj(map k | k in o.props :: o.props[k].(writable := false, configurable := false), false)
  }

  /** A frozen object refuses every assignment, to an own key or a new one, and
      every deletion of an own key; deleting a key it does not own is a no-op.
      Redefining a property is refused unless it restates what is there. */
  lemma FrozenRejectsChanges<T>(o: Obj<T>, key: string, v: T, enumerable: bool)
    requires Frozen(o)
    ensures Put(o, key, v) == Failure(if key in o.props then ReadOnly(key) else NotExtensible(key))
    ensures Delete(o, key) == if key in o.props then Failure(NotDeletable(key)) else Success(o)
    ensures DefineValue(o, key, v, enumerable).Success? <==>
      key in o.props && o.props[key].value == v && o.props[key].enumerable == enumerable
    ensures DefineValue(o, key, v, enumerable).Success? ==> DefineValue(o, key, v, enumerable).value == o
  {
    if key in o.props {
      var p := o.props[key];
      if p.value == v && p.enumerable == enumerable {
        assert p.(value := v, enumerable := enumerable) == p;
        assert o.props[key := p] == o.props;
      }
    }
  }
}

=== FILE: rows.dfy ===
/** The `Row` record of lib/row.js: a frozen object whose fields can be read by
    position and by column name. The constructor is a loop of property writes,
    so the model builds the row as a fold of those writes and then adds `length`
    and `_keys` and freezes it, exactly in that order. */
module Rows {
  import opened Wrappers
  import opened DecimalKeys
  import opened JsObjects

  /** A value the SQL engine hands back for one column. */
  datatype SqlValue = Null | Number(n: int) | Text(s: string) | Blob(bytes: seq<bv8>)

  /** The identity of a JavaScript array object: one the caller allocated, or
      the frozen copy the Row constructor makes of another. A copy is never the
      array it was made from. */
  datatype ArrayId = Allocated(n: nat) | FrozenCopy(original: ArrayId)

  /** A JavaScript array of column names: its identity, contents, and whether it
      is frozen. */
  datatype NameArray = NameArray(id: ArrayId, names: seq<string>, frozen: bool)

  /** What a Row property holds: a field, the `length` count, or the `_keys` array. */
  datatype Slot = Field(value: SqlValue) | Count(n: nat) | Keys(list: NameArray)

  type RowObject = Obj<Slot>

  const LengthKey: string := "length"
  const KeysKey: string := "_keys"

  /** The two keys the constructor redefines as non-enumerable after the loop. */
  const Hidden: set<string> := {LengthKey, KeysKey}

  /** The key `columns[i]` becomes: past the end of the array it reads
      `undefined`, whose property key is "undefined". */
  function ColumnKey(columns: NameArray, i: nat): string {
    if i < |columns.names| then columns.names[i] else "undefined"
  }

  /** Loop iteration `i` writes the column key and then the index key. */
  predicate Writes(columns: NameArray, i: nat, key: string) {
    ColumnKey(columns, i) == key || IndexKey(i) == key
  }

  /** The last of the first `k` iterations that writes `key`. */
  function LastWriter(columns: NameArray, k: nat, key: string): (r: Option<nat>)
    ensures r.Some? ==> r.value < k && Writes(columns, r.value, key)
    ensures r.Some? ==> forall j :: r.value < j < k ==> !Writes(columns, j, key)
    ensures r.None? ==> forall j :: 0 <= j < k ==> !Writes(columns, j, key)
  {
    if k == 0 then None
    else if Writes(columns, k - 1, key) then Some(k - 1)
    else LastWriter(columns, k - 1, key)
  }

  /** The value the last write to `key` stored, if any iteration wrote it. */
  function LastWrite(columns: NameArray, values: seq<SqlValue>, k: nat, key: string): Option<SqlValue>
    requires k <= |values|
  {
    match LastWriter(columns, k, key)
    case Some(j) => Some(values[j])
    case None => None
  }

  function IndexKeys(n: nat): set<string> {
    set i: nat | i < n :: IndexKey(i)
  }

  function ColumnKeys(columns: NameArray, n: nat): set<string> {
    set i: nat | i < n :: ColumnKey(columns, i)
  }

  function Lookup(m: map<string, SqlValue>, key: string): Option<SqlValue> {
    if key in m then Some(m[key]) else None
  }

  /** The fields after the first `k` iterations of the constructor's loop,
      `this[i] = this[columns[i]] = values[i]`: the inner assignment (the
      column) happens first, then the index. */
  function Fill(columns: NameArray, values: seq<SqlValue>, k: nat): map<string, SqlValue>
    requires k <= |values|
  {
    if k == 0 then map[]
    else Fill(columns, values, k - 1)[ColumnKey(columns, k - 1) := values[k - 1]][IndexKey(k - 1) := values[k - 1]]
  }

  /** Every key holds what its last write stored, and only written keys exist. */
  lemma {:induction false} FillIsLastWrite(columns: NameArray, values: seq<SqlValue>, k: nat)
    requires k <= |values|
    ensures forall key :: Lookup(Fill(columns, values, k), key) == LastWrite(columns, values, k, key)
  {
    if k > 0 {
      FillIsLastWrite(columns, values, k - 1);
      forall key
        ensures Lookup(Fill(columns, values, k), key) == LastWrite(columns, values, k, key)
      {
        if !Writes(columns, k - 1, key) {
          assert Lookup(Fill(columns, values, k), key) == Lookup(Fill(columns, values, k - 1), key);
        }
      }
    }
  }

  /** The written keys are exactly the first `k` index keys and column keys. */
  lemma {:induction false} FillKeys(columns: NameArray, values: seq<SqlValue>, k: nat)
    requires k <= |values|
    ensures Fill(columns, values, k).Keys == IndexKeys(k) + ColumnKeys(columns, k)
  {
    if k > 0 {
      FillKeys(columns, values, k - 1);
      assert IndexKeys(k) == IndexKeys(k - 1) + {IndexKey(k - 1)};
      assert ColumnKeys(columns, k) == ColumnKeys(columns, k - 1) + {ColumnKey(columns, k - 1)};
    }
  }

  /** The object holding the fields of `m` as plain assigned properties. */
  function DataObject(m: map<string, SqlValue>): RowObject {
    Obj(map key | key in m :: Prop(Field(m[key]), true, true, true), true)
  }

  lemma PutIntoDataObject(m: map<string, SqlValue>, key: string, v: SqlValue)
    ensures Put(DataObject(m), key, Field(v)) == Success(DataObject(m[key := v]))
  {
    var r := Put(DataObject(m), key, Field(v));
    assert r.value.props == DataObject(m[key := v]).props;
  }

  /** The constructor's loop, iterations `k` to the end, on object `o`. */
  function WriteFields(o: RowObject, columns: NameArray, values: seq<SqlValue>, k: nat): (r: Result<RowObject, TypeError>)
    requires k <= |values|
    ensures r.Success? ==> r.value.extensible == o.extensible && o.props.Keys <= r.value.props.Keys
    ensures r.Success? ==> forall j :: k <= j < |values| ==>
      IndexKey(j) in r.value.props && ColumnKey(columns, j) in r.value.props
    ensures Frozen(o) && k < |values| ==>
      r == Failure(if ColumnKey(columns, k) in o.props then ReadOnly(ColumnKey(columns, k)) else NotExtensible(ColumnKey(columns, k)))
    decreases |values| - k
  {
    if k == |values| then Success(o)
    else
      var named :- Put(o, ColumnKey(columns, k), Field(values[k]));
      var indexed :- Put(named, IndexKey(k), Field(values[k]));
      WriteFields(indexed, columns, values, k + 1)
  }

  /** On a fresh object no write of the loop can fail, and the loop ends with the
      fields of `Fill`. */
  lemma {:induction false} WriteFieldsFills(columns: NameArray, values: seq<SqlValue>, k: nat)
    requires k <= |values|
    ensures WriteFields(DataObject(Fill(columns, values, k)), columns, values, k)
         == Success(DataObject(Fill(columns, values, |values|)))
    decreases |values| - k
  {
    if k < |values| {
      var m := Fill(columns, values, k);
      var named := m[ColumnKey(columns, k) := values[k]];
      PutIntoDataObject(m, ColumnKey(columns, k), values[k]);
      PutIntoDataObject(named, IndexKey(k), values[k]);
      assert Fill(columns, values, k + 1) == named[IndexKey(k) := values[k]];
      WriteFieldsFills(columns, values, k + 1);
    }
  }

  /** `_keys`: the column array itself when it is already frozen, otherwise a
      frozen copy of it. */
  function FrozenColumns(columns: NameArray): (a: NameArray)
    ensures a.frozen && a.names == columns.names
    ensures columns.frozen <==> a == columns
    ensures !columns.frozen ==> a.id != columns.id
  {
    if columns.frozen then columns else NameArray(FrozenCopy(columns.id), columns.names, true)
  }

  /** The field value stored under `key`, if `key` is a field of `o`. */
  function FieldValue(o: RowObject, key: string): Option<SqlValue> {
    if key in o.props && o.props[key].value.Field? then Some(o.props[key].value.value) else None
  }

  /** The constructor after its loop: `length` and `_keys` defined as
      non-enumerable values, then `Object.freeze(this)`. */
  function Finish(written: RowObject, columns: NameArray, n: nat): (r: Result<RowObject, TypeError>)
    ensures written.extensible && (forall k :: k in written.props ==> written.props[k].configurable) ==> r.Success?
    ensures r.Success? ==> Frozen(r.value) && r.value.props.Keys == written.props.Keys + Hidden
    ensures r.Success? ==> r.value.props[LengthKey].value == Count(n) && !r.value.props[LengthKey].enumerable
    ensures r.Success? ==> r.value.props[KeysKey].value == Keys(FrozenColumns(columns)) && !r.value.props[KeysKey].enumerable
  {
    var withLength :- DefineValue(written, LengthKey, Count(n), false);
    var withKeys :- DefineValue(withLength, KeysKey, Keys(FrozenColumns(columns)), false);
    Success(Freeze(withKeys))
  }

  /** Finishing the fields `m` cannot fail; it keeps every field outside `Hidden`
      and hides `length` and `_keys`, whatever the loop had put there. */
  lemma FinishDataObject(m: map<string, SqlValue>, columns: NameArray, n: nat)
    ensures Finish(DataObject(m), columns, n).Success?
    ensures var row := Finish(DataObject(m), columns, n).value;
      && Frozen(row)
      && row.props.Keys == m.Keys + Hidden
      && EnumerableKeys(row) == m.Keys - Hidden
      && row.props[LengthKey].value == Count(n)
      && row.props[KeysKey].value == Keys(FrozenColumns(columns))
      && forall key :: key !in Hidden ==> FieldValue(row, key) == Lookup(m, key)
  {
    var written := DataObject(m);
    var withLength := DefineValue(written, LengthKey, Count(n), false);
    assert withLength.Success?;
    var withKeys := DefineValue(withLength.value, KeysKey, Keys(FrozenColumns(columns)), false);
    assert withKeys.Success?;
    var row := Freeze(withKeys.value);
    assert Finish(written, columns, n) == Success(row);
    forall key | key !in Hidden
      ensures FieldValue(row, key) == Lookup(m, key)
      ensures key in row.props ==> (row.props[key].enumerable <==> key in m)
    {
      if key in m {
        assert withKeys.value.props[key] == written.props[key];
      }
    }
    assert EnumerableKeys(row) == m.Keys - Hidden;
  }

  /** `new Row(columns, values)`. */
  function NewRow(columns: NameArray, values: seq<SqlValue>): (r: Result<RowObject, TypeError>)
    ensures r.Success?
    ensures Frozen(r.value)
    ensures LengthKey in r.value.props && r.value.props[LengthKey].value == Count(|values|)
    ensures KeysKey in r.value.props
    ensures r.value.props[KeysKey].value == Keys(FrozenColumns(columns))
    ensures forall key :: key !in Hidden ==> FieldValue(r.value, key) == LastWrite(columns, values, |values|, key)
  {
    var m := Fill(columns, values, |values|);
    assert DataObject(map[]) == EmptyObject();
    WriteFieldsFills(columns, values, 0);
    FillIsLastWrite(columns, values, |values|);
    FillKeys(columns, values, |values|);
    FinishDataObject(m, columns, |values|);
    match WriteFields(EmptyObject(), columns, values, 0)
    case Success(written) => Finish(written, columns, |values|)
    case Failure(e) => Failure(e)
  }

  /** A key outside `Hidden` reads the value of the last iteration that wrote it. */
  lemma ReadField(columns: NameArray, values: seq<SqlValue>, key: string, j: nat)
    requires key !in Hidden && j < |values| && Writes(columns, j, key)
    requires forall k :: j < k < |values| ==> !Writes(columns, k, key)
    ensures FieldValue(NewRow(columns, values).value, key) == Some(values[j])
  {
    var last := LastWriter(columns, |values|, key);
    assert last.Some?;
    assert !(last.value < j) && !(j < last.value);
  }

  /** The row owns the index keys, the column keys, `length` and `_keys`, and
      lists all but the last two as enumerable. */
  lemma NewRowKeys(columns: NameArray, values: seq<SqlValue>)
    ensures NewRow(columns, values).value.props.Keys == IndexKeys(|values|) + ColumnKeys(columns, |values|) + Hidden
    ensures EnumerableKeys(NewRow(columns, values).value) == IndexKeys(|values|) + ColumnKeys(columns, |values|) - Hidden
  {
    WriteFieldsFills(columns, values, 0);
    assert DataObject(map[]) == EmptyObject();
    FillKeys(columns, values, |values|);
    FinishDataObject(Fill(columns, values, |values|), columns, |values|);
  }
}

/** What a constructed Row promises its readers: where each field's value comes
    from, which keys exist, that it cannot be changed, and how the borrowed
    array methods see it. */
module RowProperties {
  import opened Wrappers
  import opened DecimalKeys
  import opened JsObjects
  import opened Rows
  import ArrayMethods

  /** No column name spells the key of an index the row has. */
  predicate NoColumnSpellsIndex(columns: NameArray, n: nat) {
    forall i: nat, j: nat :: i < n && j < n ==> ColumnKey(columns, j) != IndexKey(i)
  }

  lemma HiddenKeysAreNotIndexKeys(i: nat)
    ensures IndexKey(i) !in Hidden
  {
    NotAnIndexKey(LengthKey, i);
    NotAnIndexKey(KeysKey, i);
  }

  /** `row[i]` reads `values[i]` unless a later column is named after index `i`. */
  lemma IndexReadsOwnValue(columns: NameArray, values: seq<SqlValue>, i: nat)
    requires i < |values|
    requires forall j :: i < j < |values| ==> ColumnKey(columns, j) != IndexKey(i)
    ensures FieldValue(NewRow(columns, values).value, IndexKey(i)) == Some(values[i])
  {
    HiddenKeysAreNotIndexKeys(i);
    forall k: nat | i < k < |values|
      ensures !Writes(columns, k, IndexKey(i))
    {
      IndexKeyInjective(i, k);
    }
    ReadField(columns, values, IndexKey(i), i);
  }

  /** A later column named after index `i` overwrites the positional field: the
      last such column's value is what `row[i]` reads. */
  lemma IndexOverwrittenByColumn(columns: NameArray, values: seq<SqlValue>, i: nat, j: nat)
    requires i < j < |values|
    requires ColumnKey(columns, j) == IndexKey(i)
    requires forall k :: j < k < |values| ==> ColumnKey(columns, k) != IndexKey(i)
    ensures FieldValue(NewRow(columns, values).value, IndexKey(i)) == Some(values[j])
  {
    HiddenKeysAreNotIndexKeys(i);
    forall k: nat | j < k < |values|
      ensures !Writes(columns, k, IndexKey(i))
    {
      IndexKeyInjective(i, k);
    }
    ReadField(columns, values, IndexKey(i), j);
  }

  /** The example `["x", "0"]`: the second column's value lands in `row[0]`. */
  lemma ColumnNamedZeroOverwritesFirstField(a: SqlValue, b: SqlValue)
    ensures var row := NewRow(NameArray(Allocated(0), ["x", "0"], false), [a, b]).value;
      FieldValue(row, IndexKey(0)) == Some(b) && FieldValue(row, "x") == Some(a)
  {
    var columns := NameArray(Allocated(0), ["x", "0"], false);
    assert IndexKey(0) == "0";
    assert ColumnKey(columns, 0) == "x" && ColumnKey(columns, 1) == "0";
    IndexOverwrittenByColumn(columns, [a, b], 0, 1);
    NotAnIndexKey("x", 1);
    NamedReadsLastDuplicate(columns, [a, b], 0, 0);
  }

  /** With fewer column names than values, `columns[i]` past the end reads
      `undefined`: every extra value is written under the key "undefined", and
      the last one is what `row.undefined` reads. */
  lemma ExtraValuesLandOnUndefined(columns: NameArray, values: seq<SqlValue>)
    requires |columns.names| < |values|
    ensures ColumnKey(columns, |values| - 1) == "undefined"
    ensures FieldValue(NewRow(columns, values).value, "undefined") == Some(values[|values| - 1])
  {
    assert "undefined" !in Hidden;
    ReadField(columns, values, "undefined", |values| - 1);
  }

  /** `row[name]` reads the value of the last column with that name. */
  lemma NamedReadsLastDuplicate(columns: NameArray, values: seq<SqlValue>, i: nat, j: nat)
    requires i <= j < |values|
    requires ColumnKey(columns, j) == ColumnKey(columns, i) && ColumnKey(columns, i) !in Hidden
    requires forall k :: j < k < |values| ==> ColumnKey(columns, k) != ColumnKey(columns, i)
    requires forall k :: j < k < |values| ==> IndexKey(k) != ColumnKey(columns, i)
    ensures FieldValue(NewRow(columns, values).value, ColumnKey(columns, i)) == Some(values[j])
  {
    ReadField(columns, values, ColumnKey(columns, i), j);
  }

  /** The example `["a", "a"]`: the second value wins. */
  lemma DuplicateColumnLastWins(a: SqlValue, b: SqlValue)
    ensures FieldValue(NewRow(NameArray(Allocated(0), ["a", "a"], false), [a, b]).value, "a") == Some(b)
  {
    NotAnIndexKey("a", 0);
    NotAnIndexKey("a", 1);
    NamedReadsLastDuplicate(NameArray(Allocated(0), ["a", "a"], false), [a, b], 0, 1);
  }

  /** With distinct column names, none spelling an index and none hidden, every
      field is reachable both by position and by name. */
  lemma FieldsReachableBothWays(columns: NameArray, values: seq<SqlValue>)
    requires NoColumnSpellsIndex(columns, |values|)
    requires forall i, j :: 0 <= i < j < |values| ==> ColumnKey(columns, i) != ColumnKey(columns, j)
    requires forall i :: 0 <= i < |values| ==> ColumnKey(columns, i) !in Hidden
    ensures forall i :: 0 <= i < |values| ==>
      var row := NewRow(columns, values).value;
      FieldValue(row, IndexKey(i)) == Some(values[i]) && FieldValue(row, ColumnKey(columns, i)) == Some(values[i])
  {
    forall i | 0 <= i < |values|
      ensures FieldValue(NewRow(columns, values).value, IndexKey(i)) == Some(values[i])
      ensures FieldValue(NewRow(columns, values).value, ColumnKey(columns, i)) == Some(values[i])
    {
      IndexReadsOwnValue(columns, values, i);
      NamedReadsLastDuplicate(columns, values, i, i);
    }
  }

  /** `length` and `_keys`: the count of values, and the column names frozen:
      the caller's array itself when it was frozen, otherwise a new array. */
  lemma LengthAndKeys(columns: NameArray, values: seq<SqlValue>)
    ensures var row := NewRow(columns, values).value;
      && row.props[LengthKey] == Prop(Count(|values|), false, false, false)
      && row.props[KeysKey].value.list.names == columns.names
      && row.props[KeysKey].value.list.frozen
      && (columns.frozen <==> row.props[KeysKey].value.list == columns)
      && (!columns.frozen ==> row.props[KeysKey].value.list.id != columns.id)
      && LengthKey !in EnumerableKeys(row) && KeysKey !in EnumerableKeys(row)
  {
  }

  /** The keys `Object.keys(row)` lists are the index keys and the column names. */
  lemma EnumerableKeysExactly(columns: NameArray, values: seq<SqlValue>)
    requires forall i :: 0 <= i < |values| ==> ColumnKey(columns, i) !in Hidden
    ensures EnumerableKeys(NewRow(columns, values).value) == IndexKeys(|values|) + ColumnKeys(columns, |values|)
  {
    NewRowKeys(columns, values);
    forall i: nat | i < |values| {
      HiddenKeysAreNotIndexKeys(i);
    }
  }

  /** After construction every assignment throws, to an existing key (an index,
      a column, `length`) or a new one (`-1`, `n`, `toString`); deleting an own
      key throws; deleting anything else is a no-op. */
  lemma RowRejectsMutation(columns: NameArray, values: seq<SqlValue>, key: string, v: Slot)
    ensures var row := NewRow(columns, values).value;
      var owned := IndexKeys(|values|) + ColumnKeys(columns, |values|) + Hidden;
      && Put(row, key, v) == Failure(if key in owned then ReadOnly(key) else NotExtensible(key))
      && Delete(row, key) == (if key in owned then Failure(NotDeletable(key)) else Success(row))
  {
    NewRowKeys(columns, values);
    FrozenRejectsChanges(NewRow(columns, values).value, key, v, false);
  }

  const SampleColumns: NameArray := NameArray(Allocated(0), ["spam", "ham", "eggs", "bacon"], false)
  const SampleValues: seq<SqlValue> := [Text("one"), Text("two"), Text("three"), Text("four")]

  lemma SampleIndexKeys()
    ensures IndexKeys(4) == {"0", "1", "2", "3"}
    ensures NoColumnSpellsIndex(SampleColumns, 4)
  {
    assert IndexKey(0) == "0" && IndexKey(1) == "1" && IndexKey(2) == "2" && IndexKey(3) == "3";
    forall i: nat, j: nat | i < 4 && j < 4
      ensures ColumnKey(SampleColumns, j) != IndexKey(i)
    {
      NotAnIndexKey(ColumnKey(SampleColumns, j), i);
    }
  }

  /** The row the test suite builds: each field by position and by name. */
  lemma SampleRowReads()
    ensures var row := NewRow(SampleColumns, SampleValues).value;
      && FieldValue(row, "0") == Some(Text("one")) && FieldValue(row, "spam") == Some(Text("one"))
      && FieldValue(row, "3") == Some(Text("four")) && FieldValue(row, "bacon") == Some(Text("four"))
      && row.props[LengthKey].value == Count(4)
  {
    SampleIndexKeys();
    FieldsReachableBothWays(SampleColumns, SampleValues);
    assert ColumnKey(SampleColumns, 0) == "spam" && ColumnKey(SampleColumns, 3) == "bacon";
  }

  /** The test suite's row lists exactly its four indices and four names. */
  lemma SampleRowKeys()
    ensures EnumerableKeys(NewRow(SampleColumns, SampleValues).value) == {"0", "1", "2", "3", "spam", "ham", "eggs", "bacon"}
  {
    SampleIndexKeys();
    SampleColumnKeys();
    EnumerableKeysExactly(SampleColumns, SampleValues);
  }

  lemma SampleColumnKeys()
    ensures ColumnKeys(SampleColumns, 4) == {"spam", "ham", "eggs", "bacon"}
  {
    assert ColumnKey(SampleColumns, 0) == "spam" && ColumnKey(SampleColumns, 1) == "ham";
    assert ColumnKey(SampleColumns, 2) == "eggs" && ColumnKey(SampleColumns, 3) == "bacon";
  }

  /** The test suite's attempts to overwrite or delete fields of its row, and to
      change its length, each throw the error the suite expects. */
  lemma SampleRowRejectsChanges()
    ensures var row := NewRow(SampleColumns, SampleValues).value;
      && Put(row, "0", Field(Text("notOne"))) == Failure(ReadOnly("0"))
      && Put(row, "spam", Field(Text("notOne"))) == Failure(ReadOnly("spam"))
      && Put(row, LengthKey, Count(2)) == Failure(ReadOnly(LengthKey))
      && Delete(row, "0") == Failure(NotDeletable("0"))
      && Delete(row, "spam") == Failure(NotDeletable("spam"))
  {
    SampleIndexKeys();
    SampleColumnKeys();
    RowRejectsMutation(SampleColumns, SampleValues, "0", Field(Text("notOne")));
    RowRejectsMutation(SampleColumns, SampleValues, "spam", Field(Text("notOne")));
    RowRejectsMutation(SampleColumns, SampleValues, LengthKey, Count(2));
  }

  /** The test suite's attempts to add keys `4`, `-1`, `test` and `toString` to
      its row each throw "Can't add property". */
  lemma SampleRowRejectsAdditions()
    ensures var row := NewRow(SampleColumns, SampleValues).value;
      && Put(row, "4", Field(Text("five"))) == Failure(NotExtensible("4"))
      && Put(row, "-1", Field(Text("zero"))) == Failure(NotExtensible("-1"))
      && Put(row, "test", Field(Text("zero"))) == Failure(NotExtensible("test"))
      && Put(row, "toString", Field(Text("five"))) == Failure(NotExtensible("toString"))
  {
    SampleIndexKeys();
    SampleColumnKeys();
    var owned := IndexKeys(4) + ColumnKeys(SampleColumns, 4) + Hidden;
    assert owned == {"0", "1", "2", "3", "spam", "ham", "eggs", "bacon", "length", "_keys"};
    assert "4" !in owned && "-1" !in owned && "test" !in owned && "toString" !in owned;
    RowRejectsMutation(SampleColumns, SampleValues, "4", Field(Text("five")));
    RowRejectsMutation(SampleColumns, SampleValues, "-1", Field(Text("zero")));
    RowRejectsMutation(SampleColumns, SampleValues, "test", Field(Text("zero")));
    RowRejectsMutation(SampleColumns, SampleValues, "toString", Field(Text("five")));
  }

  /** The messages of the sample row's errors start with the words the test
      suite matches them by. */
  lemma SampleRowMessages()
    ensures var row := NewRow(SampleColumns, SampleValues).value;
      && (match Put(row, "spam", Field(Text("notOne")))
          case Failure(e) => "Cannot assign to read only property" <= Message(e)
          case Success(_) => false)
      && (match Delete(row, "0")
          case Failure(e) => "Cannot delete property" <= Message(e)
          case Success(_) => false)
      && (match Put(row, "4", Field(Text("five")))
          case Failure(e) => "Can't add property" <= Message(e)
          case Success(_) => false)
  {
    SampleRowRejectsChanges();
    SampleRowRejectsAdditions();
    MessagePrefixes("spam");
    MessagePrefixes("0");
    MessagePrefixes("4");
  }

  // The positional view and the borrowed methods

  /** A frozen row whose `length` positions all hold fields. */
  predicate IsRow(o: RowObject) {
    && Frozen(o)
    && LengthKey in o.props && o.props[LengthKey].value.Count?
    && forall i: nat :: i < o.props[LengthKey].value.n ==> FieldValue(o, IndexKey(i)).Some?
  }

  /** `row[0], ..., row[row.length - 1]`: all the borrowed methods ever read. */
  function Positional(o: RowObject): (s: seq<SqlValue>)
    requires IsRow(o)
  {
    var n := o.props[LengthKey].value.n;
    seq(n, i requires 0 <= i < n && FieldValue(o, IndexKey(i)).Some? => FieldValue(o, IndexKey(i)).value)
  }

  lemma NewRowIsRow(columns: NameArray, values: seq<SqlValue>)
    ensures IsRow(NewRow(columns, values).value)
  {
    var row := NewRow(columns, values).value;
    forall i: nat | i < |values|
      ensures FieldValue(row, IndexKey(i)).Some?
    {
      HiddenKeysAreNotIndexKeys(i);
      assert Writes(columns, i, IndexKey(i));
      assert LastWriter(columns, |values|, IndexKey(i)).Some?;
    }
  }

  /** When no column spells an index, the positional view is `values`. */
  lemma PositionalIsValues(columns: NameArray, values: seq<SqlValue>)
    requires NoColumnSpellsIndex(columns, |values|)
    ensures IsRow(NewRow(columns, values).value)
    ensures Positional(NewRow(columns, values).value) == values
  {
    NewRowIsRow(columns, values);
    var pos := Positional(NewRow(columns, values).value);
    forall i | 0 <= i < |values|
      ensures pos[i] == values[i]
    {
      IndexReadsOwnValue(columns, values, i);
    }
  }

  const BorrowedNames: set<string> :=
    {"every", "filter", "forEach", "indexOf", "lastIndexOf", "map", "reduce", "reduceRight", "slice", "some"}

  /** Calling `row.name(...)`: a field named `name` shadows the borrowed method,
      and a field value is not a function. */
  function Borrow<X>(o: RowObject, name: string, result: X): (r: Result<X, TypeError>)
    ensures r.Failure? <==> name in o.props
    ensures r.Failure? ==> r.error == NotCallable(name)
    ensures r.Success? ==> r.value == result
  {
    if name in o.props then Failure(NotCallable(name)) else Success(result)
  }

  function RowEvery(o: RowObject, p: (SqlValue, nat) -> bool): (r: Result<bool, TypeError>)
    requires IsRow(o)
    ensures r.Failure? <==> "every" in o.props
    ensures r.Failure? ==> r.error == NotCallable("every")
    ensures r.Success? ==> (r.value <==> forall i :: 0 <= i < |Positional(o)| ==> p(Positional(o)[i], i))
  {
    Borrow(o, "every", ArrayMethods.Every(Positional(o), p))
  }

  function RowSome(o: RowObject, p: (SqlValue, nat) -> bool): (r: Result<bool, TypeError>)
    requires IsRow(o)
    ensures r.Failure? <==> "some" in o.props
    ensures r.Failure? ==> r.error == NotCallable("some")
    ensures r.Success? ==> (r.value <==> exists i :: 0 <= i < |Positional(o)| && p(Positional(o)[i], i))
  {
    Borrow(o, "some", ArrayMethods.SomeOf(Positional(o), p))
  }

  function RowFilter(o: RowObject, p: (SqlValue, nat) -> bool): (r: Result<seq<SqlValue>, TypeError>)
    requires IsRow(o)
    ensures r.Failure? <==> "filter" in o.props
    ensures r.Failure? ==> r.error == NotCallable("filter")
    ensures r.Success? ==> forall i :: 0 <= i < |Positional(o)| && p(Positional(o)[i], i) ==> Positional(o)[i] in r.value
    ensures r.Success? ==> forall y :: y in r.value ==> y in Positional(o)
  {
    Borrow(o, "filter", ArrayMethods.Filter(Positional(o), p))
  }

  function RowForEach(o: RowObject): (r: Result<seq<(SqlValue, nat)>, TypeError>)
    requires IsRow(o)
    ensures r.Failure? <==> "forEach" in o.props
    ensures r.Failure? ==> r.error == NotCallable("forEach")
    ensures r.Success? ==> |r.value| == |Positional(o)| && forall i :: 0 <= i < |Positional(o)| ==> r.value[i] == (Positional(o)[i], i)
  {
    Borrow(o, "forEach", ArrayMethods.ForEachCalls(Positional(o)))
  }

  function RowMap<U>(o: RowObject, f: (SqlValue, nat) -> U): (r: Result<seq<U>, TypeError>)
    requires IsRow(o)
    ensures r.Failure? <==> "map" in o.props
    ensures r.Failure? ==> r.error == NotCallable("map")
    ensures r.Success? ==> |r.value| == |Positional(o)| && forall i :: 0 <= i < |Positional(o)| ==> r.value[i] == f(Positional(o)[i], i)
  {
    Borrow(o, "map", ArrayMethods.Map(Positional(o), f))
  }

  function RowReduceWith<A>(o: RowObject, f: (A, SqlValue, nat) -> A, init: A): (r: Result<A, TypeError>)
    requires IsRow(o)
    ensures r.Failure? <==> "reduce" in o.props
    ensures r.Failure? ==> r.error == NotCallable("reduce")
    ensures r.Success? && |Positional(o)| == 0 ==> r.value == init
  {
    Borrow(o, "reduce", ArrayMethods.ReduceWith(Positional(o), f, init))
  }

  function RowReduce(o: RowObject, f: (SqlValue, SqlValue, nat) -> SqlValue): (r: Result<SqlValue, TypeError>)
    requires IsRow(o)
    ensures "reduce" in o.props ==> r == Failure(NotCallable("reduce"))
    ensures "reduce" !in o.props ==> (r.Failure? <==> |Positional(o)| == 0)
    ensures "reduce" !in o.props && r.Failure? ==> r.error == EmptyReduce
  {
    if "reduce" in o.props then Failure(NotCallable("reduce")) else ArrayMethods.Reduce(Positional(o), f)
  }

  function RowReduceRightWith<A>(o: RowObject, f: (A, SqlValue, nat) -> A, init: A): (r: Result<A, TypeError>)
    requires IsRow(o)
    ensures r.Failure? <==> "reduceRight" in o.props
    ensures r.Failure? ==> r.error == NotCallable("reduceRight")
    ensures r.Success? && |Positional(o)| == 0 ==> r.value == init
  {
    Borrow(o, "reduceRight", ArrayMethods.ReduceRightWith(Positional(o), f, init))
  }

  function RowReduceRight(o: RowObject, f: (SqlValue, SqlValue, nat) -> SqlValue): (r: Result<SqlValue, TypeError>)
    requires IsRow(o)
    ensures "reduceRight" in o.props ==> r == Failure(NotCallable("reduceRight"))
    ensures "reduceRight" !in o.props ==> (r.Failure? <==> |Positional(o)| == 0)
    ensures "reduceRight" !in o.props && r.Failure? ==> r.error == EmptyReduce
  {
    if "reduceRight" in o.props then Failure(NotCallable("reduceRight")) else ArrayMethods.ReduceRight(Positional(o), f)
  }

  function RowSlice(o: RowObject, start: int, end: Option<int>): (r: Result<seq<SqlValue>, TypeError>)
    requires IsRow(o)
    ensures r.Failure? <==> "slice" in o.props
    ensures r.Failure? ==> r.error == NotCallable("slice")
    ensures r.Success? ==> |r.value| <= |Positional(o)|
    ensures r.Success? ==> forall y :: y in r.value ==> y in Positional(o)
  {
    Borrow(o, "slice", ArrayMethods.Slice(Positional(o), start, end))
  }

  function RowIndexOf(o: RowObject, x: SqlValue, fromIndex: Option<int>): (r: Result<int, TypeError>)
    requires IsRow(o)
    ensures r.Failure? <==> "indexOf" in o.props
    ensures r.Failure? ==> r.error == NotCallable("indexOf")
    ensures r.Success? ==> -1 <= r.value < |Positional(o)|
    ensures r.Success? && r.value >= 0 ==> Positional(o)[r.value] == x
    ensures r.Success? && fromIndex.None? ==> (r.value == -1 <==> x !in Positional(o))
  {
    Borrow(o, "indexOf", ArrayMethods.IndexOf(Positional(o), x, fromIndex))
  }

  function RowLastIndexOf(o: RowObject, x: SqlValue, fromIndex: Option<int>): (r: Result<int, TypeError>)
    requires IsRow(o)
    ensures r.Failure? <==> "lastIndexOf" in o.props
    ensures r.Failure? ==> r.error == NotCallable("lastIndexOf")
    ensures r.Success? ==> -1 <= r.value < |Positional(o)|
    ensures r.Success? && r.value >= 0 ==> Positional(o)[r.value] == x
    ensures r.Success? && fromIndex.None? ==> (r.value == -1 <==> x !in Positional(o))
  {
    Borrow(o, "lastIndexOf", ArrayMethods.LastIndexOf(Positional(o), x, fromIndex))
  }

  /** No column is named after a borrowed method. */
  predicate NoColumnShadows(columns: NameArray, n: nat) {
    forall j: nat :: j < n ==> ColumnKey(columns, j) !in BorrowedNames
  }

  lemma BorrowedNameIsNotAnIndexKey(name: string, i: nat)
    requires name in BorrowedNames
    ensures name != IndexKey(i) && name !in Hidden
  {
    assert 1 <= |name| && !IsDigit(name[0]);
    NotAnIndexKey(name, i);
  }

  lemma BorrowedNamesAreFree(columns: NameArray, values: seq<SqlValue>, name: string)
    requires name in BorrowedNames
    requires NoColumnShadows(columns, |values|)
    ensures name !in NewRow(columns, values).value.props
  {
    NewRowKeys(columns, values);
    BorrowedNameIsNotAnIndexKey(name, 0);
    assert name !in IndexKeys(|values|) by {
      forall i: nat | i < |values|
        ensures name != IndexKey(i)
      {
        BorrowedNameIsNotAnIndexKey(name, i);
      }
    }
    assert name !in ColumnKeys(columns, |values|);
  }

  /** A column named after a borrowed method hides it: the call throws. */
  lemma ColumnShadowsMethod(columns: NameArray, values: seq<SqlValue>, i: nat, f: (SqlValue, nat) -> SqlValue)
    requires i < |values| && ColumnKey(columns, i) == "map"
    ensures IsRow(NewRow(columns, values).value)
    ensures RowMap(NewRow(columns, values).value, f) == Failure(NotCallable("map"))
  {
    NewRowIsRow(columns, values);
    NewRowKeys(columns, values);
    assert "map" in ColumnKeys(columns, |values|);
  }

  /** `every`, `some`, `filter`, `forEach` and `map` on a row give what they give
      on `values`. */
  lemma IterationMethodsSeeValues<U>(columns: NameArray, values: seq<SqlValue>, p: (SqlValue, nat) -> bool, f: (SqlValue, nat) -> U)
    requires NoColumnSpellsIndex(columns, |values|) && NoColumnShadows(columns, |values|)
    ensures IsRow(NewRow(columns, values).value)
    ensures var row := NewRow(columns, values).value;
      && RowEvery(row, p) == Success(ArrayMethods.Every(values, p))
      && RowSome(row, p) == Success(ArrayMethods.SomeOf(values, p))
      && RowFilter(row, p) == Success(ArrayMethods.Filter(values, p))
      && RowForEach(row) == Success(ArrayMethods.ForEachCalls(values))
      && RowMap(row, f) == Success(ArrayMethods.Map(values, f))
  {
    PositionalIsValues(columns, values);
    BorrowedNamesAreFree(columns, values, "every");
    BorrowedNamesAreFree(columns, values, "some");
    BorrowedNamesAreFree(columns, values, "filter");
    BorrowedNamesAreFree(columns, values, "forEach");
    BorrowedNamesAreFree(columns, values, "map");
  }

  /** `reduce` and `reduceRight`, with and without an initial value, on a row
      give what they give on `values`. */
  lemma FoldMethodsSeeValues<A>(columns: NameArray, values: seq<SqlValue>, f: (A, SqlValue, nat) -> A, init: A,
                                g: (SqlValue, SqlValue, nat) -> SqlValue)
    requires NoColumnSpellsIndex(columns, |values|) && NoColumnShadows(columns, |values|)
    ensures IsRow(NewRow(columns, values).value)
    ensures var row := NewRow(columns, values).value;
      && RowReduceWith(row, f, init) == Success(ArrayMethods.ReduceWith(values, f, init))
      && RowReduce(row, g) == ArrayMethods.Reduce(values, g)
      && RowReduceRightWith(row, f, init) == Success(ArrayMethods.ReduceRightWith(values, f, init))
      && RowReduceRight(row, g) == ArrayMethods.ReduceRight(values, g)
  {
    PositionalIsValues(columns, values);
    BorrowedNamesAreFree(columns, values, "reduce");
    BorrowedNamesAreFree(columns, values, "reduceRight");
  }

  /** `slice`, `indexOf` and `lastIndexOf` on a row give what they give on `values`. */
  lemma SearchMethodsSeeValues(columns: NameArray, values: seq<SqlValue>, x: SqlValue, fromIndex: Option<int>,
                               start: int, end: Option<int>)
    requires NoColumnSpellsIndex(columns, |values|) && NoColumnShadows(columns, |values|)
    ensures IsRow(NewRow(columns, values).value)
    ensures var row := NewRow(columns, values).value;
      && RowSlice(row, start, end) == Success(ArrayMethods.Slice(values, start, end))
      && RowIndexOf(row, x, fromIndex) == Success(ArrayMethods.IndexOf(values, x, fromIndex))
      && RowLastIndexOf(row, x, fromIndex) == Success(ArrayMethods.LastIndexOf(values, x, fromIndex))
  {
    PositionalIsValues(columns, values);
    BorrowedNamesAreFree(columns, values, "slice");
    BorrowedNamesAreFree(columns, values, "indexOf");
    BorrowedNamesAreFree(columns, values, "lastIndexOf");
  }
}

=== FILE: sessions.dfy ===
/** Sequences of `Database` calls: the connection lifecycle as written, the three
    places where the code does not do what it evidently means to, and a
    save-and-reopen round trip through a file system on the corrected calls. */
module Sessions {
  import opened Wrappers
  import opened Databases

  /** An in-memory database opens, refuses a second open, closes, refuses a
      second close, and opens again. */
  lemma InMemoryLifecycle(read: Result<seq<bv8>, IoError>)
    ensures var openedDb := Open(NewDatabase(None), read);
      var again := Open(openedDb.db, read);
      var closed := Close(again.db);
      var closedAgain := Close(closed.db);
      var reopened := Open(closedAgain.db, read);
      && openedDb.reply == Called(None) && openedDb.db.connection.Some?
      && again.reply == Called(Some(Error(AlreadyOpened))) && again.db == openedDb.db
      && closed.reply == Called(None) && closed.db.connection.None?
      && closedAgain.reply == Called(Some(Error(NoDatabase))) && closedAgain.db == closed.db
      && reopened.reply == Called(None) && reopened.db.connection.Some?
  {
  }

  /** On a closed database `close` and `flush(path, callback)` report "No
      database opened." and ask nothing of the file system, whatever path they
      are given. As written, the one-argument `flush(callback)` instead throws
      "callback is not a function", since the missing second argument is what
      it calls; the corrected `flush` reports to the callback. */
  lemma ClosedDatabaseRefuses(db: Database, filePath: Arg, exported: seq<bv8>)
    requires db.connection.None?
    ensures Close(db) == Transition(db, Called(Some(Error(NoDatabase))))
    ensures Flush(db, filePath, Function, exported) == FlushOutcome(Called(Some(Error(NoDatabase))), None)
    ensures FlushFixed(db, filePath, Function, exported) == FlushOutcome(Called(Some(Error(NoDatabase))), None)
    ensures Flush(db, Function, Undefined, exported) == FlushOutcome(Thrown(JsTypeError(NotAFunction)), None)
    ensures FlushFixed(db, Function, Undefined, exported) == FlushOutcome(Called(Some(Error(NoDatabase))), None)
  {
  }

  // open from a file

  /** As written, opening from a file that reads successfully never connects: the
      callback never runs, a TypeError escapes the read callback, and every later
      call still finds the database closed. */
  lemma FileOpenNeverConnects(path: string, bytes: seq<bv8>, exported: seq<bv8>)
    requires path != ""
    ensures var t := Open(NewDatabase(Some(path)), Success(bytes));
      && t.db.connection.None?
      && t.reply == Uncaught(JsTypeError(NoThis))
      && Open(t.db, Success(bytes)) == t
      && Close(t.db).reply == Called(Some(Error(NoDatabase)))
      && Flush(t.db, Undefined, Function, exported).write.None?
  {
  }

  /** The file system as a map from path to contents. */
  type FileSystem = map<string, seq<bv8>>

  function ReadFile(fs: FileSystem, path: string): (r: Result<seq<bv8>, IoError>)
    ensures r.Success? <==> path in fs
  {
    if path in fs then Success(fs[path]) else Failure(IoError("ENOENT"))
  }

  /** Carrying out a write request for a string path. */
  function ApplyWrite(fs: FileSystem, request: WriteRequest): (after: FileSystem)
    requires request.path.Str?
    ensures request.path.s in after && after[request.path.s] == request.data
  {
    fs[request.path.s := request.data]
  }

  /** With the corrected `open` and `flush`: open a file, save it with
      `flush(callback)`, close, reopen, and the engine is seeded with exactly the
      image that was saved. */
  lemma SaveAndReopenRoundTrip(path: string, fs: FileSystem, exported: seq<bv8>)
    requires path != "" && path in fs
    ensures var openedDb := OpenFixed(NewDatabase(Some(path)), ReadFile(fs, path));
      var saved := FlushFixed(openedDb.db, Function, Undefined, exported);
      var closed := Close(openedDb.db);
      && openedDb.reply == Called(None) && openedDb.db.connection == Some(Connection(fs[path]))
      && saved == FlushOutcome(HandedOff, Some(WriteRequest(Str(path), exported, Function)))
      && closed.reply == Called(None)
      && var reopened := OpenFixed(closed.db, ReadFile(ApplyWrite(fs, saved.write.value), path));
         reopened.reply == Called(None) && reopened.db.connection == Some(Connection(exported))
  {
  }

  // flush

  /** As written, `flush(callback)` on a file-backed database uses the callback
      as the path and passes no callback on; `flush(undefined, callback)` writes
      to the opening path but passes `undefined` on as the callback. The
      corrected `flush` writes to the opening path and passes the callback on in
      both forms. */
  lemma FlushLosesCallback(db: Database, exported: seq<bv8>)
    requires db.connection.Some? && HasPath(db.filePath)
    ensures Flush(db, Function, Undefined, exported).write == Some(WriteRequest(Function, exported, Undefined))
    ensures Flush(db, Undefined, Function, exported).write == Some(WriteRequest(PathArg(db.filePath), exported, Undefined))
    ensures FlushFixed(db, Function, Undefined, exported).write == Some(WriteRequest(PathArg(db.filePath), exported, Function))
    ensures FlushFixed(db, Undefined, Function, exported).write == Some(WriteRequest(PathArg(db.filePath), exported, Function))
  {
  }

  /** As written, flushing an in-memory database with no path throws "callback is
      not a function" (the callback was replaced by the missing path), so the
      "no location" error reaches nobody. The corrected `flush` hands that error
      to the callback and writes nothing. */
  lemma FlushWithoutLocation(db: Database, exported: seq<bv8>)
    requires db.connection.Some? && !HasPath(db.filePath)
    ensures Flush(db, Undefined, Function, exported) == FlushOutcome(Thrown(JsTypeError(NotAFunction)), None)
    ensures Flush(db, Null, Function, exported) == FlushOutcome(Thrown(JsTypeError(NotAFunction)), None)
    ensures FlushFixed(db, Undefined, Function, exported) == FlushOutcome(Called(Some(Error(NoLocation))), None)
    ensures FlushFixed(db, Function, Undefined, exported) == FlushOutcome(Called(Some(Error(NoLocation))), None)
  {
  }
}

=== FILE: wrappers.dfy ===
/** Failure-compatible wrappers shared by the model: `Option` for values JavaScript
    may leave `undefined`, `Result` for operations that throw or report an error. */
module Wrappers {

  datatype Option<+T> = None | Some(value: T) {

    /** The value held, or `default` when there is none. */
    function GetOr(default: T): T {
      match this
      case Some(v) => v
      case None => default
    }
  }

  datatype Result<+R, +E> = Success(value: R) | Failure(error: E) {

    predicate IsFailure() {
      Failure?
    }

    function PropagateFailure<U>(): Result<U, E>
      requires Failure?
    {
      Failure(error)
    }

    function Extract(): R
      requires Success?
    {
      value
    }
  }
}
